=== FILE: README.md ===
# mapstruct in Dafny

A model of the `mapstruct` library's core: a validator, constructor and
serialiser for a tree of five entity kinds (World, Location, Layout, Layer,
geometry Element), plus `copy_dict`, the deep copy with cycle detection that
the Layer code relies on.

The untyped input is a closed `Json.Value`:
- undefined, null, booleans, numbers (an integer tag), strings, arrays and plain records;
- `Func`, for anything whose `typeof` is "function";
- `NonPlain`, for Dates, Maps and class instances.

Every failure the library can throw is an `Errors.Err`. Message strings are not modelled; each error keeps the entity, key, index or cause that its message names. A JavaScript `TypeError` from `key in v` or from a property read on null or undefined is `TypeFault`.

Each validator (`test_compatible`, `test_coordinate`, `test_element`) is a `Result<()>` function. It fails at the first check the code fails, in the code's order. Each `from_dict` validates, then constructs. Each `to_dict` is a partial function back to `Value`.

`copy_dict` is modelled twice:
- on a heap (`map<Ref, Node>` with a path set `seen`), where sharing and cycles can be expressed;
- on tree values, as used by the entity constructors.

A bridge lemma shows the two agree on a freshly laid-out tree.

The model follows the code as written, including several behaviours the doc comments do not describe. Each is a lemma:
- The Layout constructor reads from the list it is building instead of its input. Any Layout with layers therefore fails to construct, and so does any Location holding one.
- `Layer.to_dict` writes the name as the display name.
- `Layout.to_dict` drops the display name and the description.
- `Location` and `World` pass child errors through unwrapped; only `Layout` and `Layer` add an index.
- `World` stores the input records themselves, so `World.to_dict` fails on every non-empty world read from JSON.
- A record, number or boolean `locations` value is not checked by `World.test_compatible`, because its `length` is undefined. It is checked in the constructor, and its error then escapes `from_dict` unwrapped. A string is instead checked character by character, and a null or undefined `locations` makes the validator throw a TypeError; both failures are wrapped.

## Model

| member | source | states |
|---|---|---|
| Json.RealityCheckOnFalsyValues | packages/libs/mapstruct/src/util.ts:43-44 | `reality_check` is false exactly on null and undefined, and true on 0, "" and false |
| Json.HasKey | packages/libs/mapstruct/src/geometry.ts:65 | `key in v` throws a TypeError exactly on null, undefined and primitives, and is true exactly for a plain record that has the key; arrays, functions and non-plain objects are modelled as carrying no key |
| Json.Lookup | packages/libs/mapstruct/src/layer.ts:34 | reading a missing key gives undefined; the first field with the key decides the value |
| Json.LookupFirst | packages/libs/mapstruct/src/layer.ts:34 | the first field carrying the key is the one a property read returns |
| Json.Indexed | packages/libs/mapstruct/src/world.ts:50-51 | the `length`/index loop throws exactly on null and undefined, visits an array's items, and visits a string's characters (every other value has no `length`) |
| Json.RequireKeys | packages/libs/mapstruct/src/layer.ts:25-33 | the required-keys loop: TypeError on a non-object; otherwise it passes exactly when every key is present (and non-null where demanded), else it names the first missing key |
| Json.RequireKeysSeesOnlyCarries | packages/libs/mapstruct/src/layout.ts:40-46 | the required-keys loop depends only on which keys the record carries |
| Sequences.CheckAll | packages/libs/mapstruct/src/layer.ts:43-50 | a fail-fast loop passes exactly when every entry passes, and otherwise reports the first failing index and its error |
| Sequences.MapAll | packages/libs/mapstruct/src/layer.ts:86-91 | a building loop succeeds exactly when every step does, keeping order and length; otherwise it fails with the first step's error |
| CopyDict.Copy | packages/libs/mapstruct/src/util.ts:72-114 | primitives, null and functions come back unchanged whatever the path; re-entering a container on the path is a cycle; a non-plain object is unsupported; any result is plain |
| CopyDict.CopyItems | packages/libs/mapstruct/src/util.ts:93 | `value.map(...)`: same length, i-th result is the copy of the i-th item; a failure is the first item's failure |
| CopyDict.CopyFields | packages/libs/mapstruct/src/util.ts:100-107 | same keys in the same order, each value copied; a failure is the first field's failure |
| CopyDict.CopyRoot | packages/libs/mapstruct/src/util.ts:115 | a top-level copy starts from an empty path and yields a plain value |
| CopyDict.CopyValue | packages/libs/mapstruct/src/util.ts:72-114 | on a tree value the copy returns the value itself exactly when it holds no non-plain object, and fails as unsupported otherwise |
| CopyDictFacts.CopyArrayElementwise | packages/libs/mapstruct/src/util.ts:88-96 | an array copies to an array of the same length whose i-th entry is the copy of the i-th entry with the array on the path; the `cloned_array` loop has no effect |
| CopyDictFacts.CopyRecordFieldwise | packages/libs/mapstruct/src/util.ts:99-110 | a plain record copies to a record with the same keys in the same order, each value copied with the record on the path |
| CopyDictFacts.FewerSeenSameCopy | packages/libs/mapstruct/src/util.ts:85-108 | a successful copy does not depend on extra containers in the path set, because the set is only ever checked for ancestors |
| CopyDictFacts.RankedNeverCycles | packages/libs/mapstruct/src/util.ts:80-82 | on an acyclic heap, with the path holding only ancestors, the copy never reports a cycle |
| CopyDictFacts.RankedRootNeverCycles | packages/libs/mapstruct/src/util.ts:115 | a top-level copy of an acyclic heap never reports a cycle, however much sharing it has |
| CopyDictFacts.Unfold | packages/libs/mapstruct/src/util.ts:72-113 | the tree an acyclic heap denotes, with no path set: inline values as they are, each container unfolded wherever it is referenced; its only failure is an unsupported object, its result is plain, and it succeeds when the heap holds no non-plain object |
| CopyDictFacts.CopyIsUnfold | packages/libs/mapstruct/src/util.ts:80-110 | on an acyclic heap, with only ancestors on the path, the copy equals the unfolded tree |
| CopyDictFacts.RankedRootCopyIsUnfold | packages/libs/mapstruct/src/util.ts:115 | a top-level copy of an acyclic heap is its unfolded tree, and succeeds whenever the heap holds no non-plain object |
| CopyDictFacts.SelfReferenceIsCycle | packages/libs/mapstruct/src/util.ts:80-82 | a record holding itself fails with a cycle error |
| CopyDictFacts.SharedSiblingsCopy | packages/libs/mapstruct/src/util.ts:85-108 | one record in two sibling positions copies to two equal records, because a container leaves the path once its children are copied |
| Embedding.Embed | packages/libs/mapstruct/src/util.ts:65 | laying a tree out with one fresh container per array and record gives a closed heap that holds exactly the references it allocated |
| Embedding.CopyEmbedded | packages/libs/mapstruct/src/util.ts:72-114 | the heap copy of a laid-out tree, inside any larger heap and with any path set disjoint from the layout, equals the tree copy |
| Embedding.CopyOfFreshLayout | packages/libs/mapstruct/src/util.ts:115 | copying a fresh layout of a value equals the tree copy, and returns the value itself when it is plain |
| Embedding.CopyOfCopyUnchanged | packages/libs/mapstruct/src/util.ts:115 | copying the result of a copy again returns it unchanged |
| Geometry.KindCode | packages/libs/mapstruct/src/geometry.ts:12-25 | each kind's number is its position in declaration order, `NONE` 0 up to `POLYGON` 5, so distinct kinds get distinct numbers |
| Geometry.KindOfCode | packages/libs/mapstruct/src/geometry.ts:12-25 | each number from 0 to 5 denotes the kind that is numbered with it |
| Geometry.KindCodeRoundTrip | packages/libs/mapstruct/src/geometry.ts:12-25 | reading a kind's number back gives the kind, and two kinds with the same number are equal |
| Geometry.TestCoordinate | packages/libs/mapstruct/src/geometry.ts:44-57 | a non-array is rejected first, then a wrong length, then a pair that is not two numbers; it accepts exactly the arrays of two numbers |
| Geometry.DecodeCoordinate | packages/libs/mapstruct/src/geometry.ts:6 | an accepted coordinate is the encoding of a number pair |
| Geometry.CoordinateRoundTrip | packages/libs/mapstruct/src/geometry.ts:44-57 | encoding and decoding a coordinate are inverse on the accepted values |
| Geometry.TestElement | packages/libs/mapstruct/src/geometry.ts:60-77 | `id`, `position` and `kind` must be present and non-null, and the first missing one is named; then a non-string `id` is rejected; then a bad position is rejected with the coordinate error wrapped |
| Geometry.TestElementAcceptsExactly | packages/libs/mapstruct/src/geometry.ts:60-77 | an element passes exactly when it is a record with a string `id`, a two-number `position` and a non-null `kind` |
| Geometry.TypedElementsPass | packages/libs/mapstruct/src/geometry.ts:32-38 | every typed element of every kind, as a record, passes `test_element` |
| Geometry.KindIsNeverChecked | packages/libs/mapstruct/src/geometry.ts:60-77 | any non-null `kind` value, and any extra or missing kind-specific field, is accepted |
| Layers.Validate | packages/libs/mapstruct/src/layer.ts:23-51 | null, undefined and primitives are a TypeError; the first of `id`, `name`, `geometry` that is absent or null is named as missing; then a non-string `id`, a non-string `name` and a non-array `geometry` are rejected in that order; it accepts exactly a valid header whose elements are all valid, and the first bad element is reported with its index |
| Layers.New | packages/libs/mapstruct/src/layer.ts:80-92 | the fields are copied verbatim and the geometry entry by entry through `copy_dict`, same length and order; the only failure is an unsupported entry |
| Layers.FromDict | packages/libs/mapstruct/src/layer.ts:56-59 | no layer is built from a record that fails validation |
| Layers.ToDict | packages/libs/mapstruct/src/layer.ts:64-79 | the record holds the id, the name, the name again as display name, the description, and a copy of each element; its only failure is an element `copy_dict` rejects as unsupported |
| Layers.ConstructedLayerIsValid | packages/libs/mapstruct/src/layer.ts:56-59 | a layer built by `from_dict` holds exactly the input's geometry, and each element is valid and plain |
| Layers.RoundTrip | packages/libs/mapstruct/src/layer.ts:56-79 | `from_dict(to_dict(l))` succeeds and returns `l` with the display name replaced by the name |
| Layers.ToDictDisplayNameIsName | packages/libs/mapstruct/src/layer.ts:69 | the serialised display name is the name, whatever display name was stored |
| Layers.FirstBadElementReported | packages/libs/mapstruct/src/layer.ts:43-50 | the first invalid element fails validation with its index and its own error, and no layer is built |
| Layouts.Validate | packages/libs/mapstruct/src/layout.ts:35-71 | null is rejected first; then the first of `id`, `name`, `layers` that is absent is named as missing, a null value counting as present; then a non-string `id`, a non-string `name` and a non-array `layers` are rejected in that order; it accepts exactly a valid header whose layers are all valid, and the first bad layer is reported with its index and error |
| Layouts.ReadLayer | packages/libs/mapstruct/src/layout.ts:95 | reading past the end of the list being built gives undefined; an entry already pushed is a `Layer` instance, a non-plain object |
| Layouts.BuildLayers | packages/libs/mapstruct/src/layout.ts:94-99 | the loop ends with the list it has built when there is nothing to read; a step that reads past the end fails with a TypeError |
| Layouts.New | packages/libs/mapstruct/src/layout.ts:88-100 | on a record with string `id` and `name` and an array `layers`: an empty list builds a layout with that id, name, display name and description and no layers; a non-empty list fails with a TypeError |
| Layouts.FromDict | packages/libs/mapstruct/src/layout.ts:72-75 | a validation failure is returned as the validator reports it; a valid record gives the constructor's result |
| Layouts.ToDict | packages/libs/mapstruct/src/layout.ts:76-87 | the record has only `id`, `name` and `layers`, the last holding each layer's `to_dict` in order; a failure is the first failing layer's error |
| Layouts.LayoutRecordLookups | packages/libs/mapstruct/src/layout.ts:78-82 | the serialised record has no display name and no description |
| Layouts.ConstructorReadsItsOwnList | packages/libs/mapstruct/src/layout.ts:88-100 | a valid record builds, with no layers, exactly when its `layers` is empty; otherwise construction fails with a TypeError |
| Layouts.FirstBadLayerReported | packages/libs/mapstruct/src/layout.ts:59-68 | the first invalid layer fails validation with its index and error, and no layout is built |
| Layouts.RoundTrip | packages/libs/mapstruct/src/layout.ts:72-100 | a layout without layers reads back from its record without its display name and description; one with layers fails to read back |
| Locations.CheckHeader | packages/libs/mapstruct/src/location.ts:29-48 | null first; then the first of `id`, `name`, `layouts` that is absent is named as missing, a null value counting as present; then a non-string `id`, then a non-string `name`; it passes exactly the records with string `id` and `name` that have `layouts` |
| Locations.Validate | packages/libs/mapstruct/src/location.ts:29-55 | the header checks pass and every layout is valid; a failing layout's error is returned as is |
| Locations.New | packages/libs/mapstruct/src/location.ts:87-101 | the fields are copied and each layout is built by `Layout.from_dict`; a lone layout becomes a list of one; a failure is the first failing `Layout.from_dict` error, unwrapped |
| Locations.FromDict | packages/libs/mapstruct/src/location.ts:83-86 | no location is built from a record that fails validation |
| Locations.ToDict | packages/libs/mapstruct/src/location.ts:61-79 | the record holds the id, name, display name, description, and always a list of the layouts' records in order; a failure is the first failing layout's error |
| Locations.SameReadingsSameResult | packages/libs/mapstruct/src/location.ts:29-55 | validation and construction see a record only through its keys' presence, the values under them, and the layouts it holds |
| Locations.SingleLayoutIsListOfOne | packages/libs/mapstruct/src/location.ts:49-55 | `layouts: L` and `layouts: [L]` give the same verdict and the same location |
| Locations.LayoutErrorsPropagateUnwrapped | packages/libs/mapstruct/src/location.ts:49-55 | the first invalid layout's error is the location's error, with no index added |
| Locations.BuildsOnlyWithoutLayers | packages/libs/mapstruct/src/location.ts:87-101 | a valid location record builds exactly when none of its layouts has layers, and otherwise fails with the TypeError of the layout constructor |
| Locations.RoundTrip | packages/libs/mapstruct/src/location.ts:61-101 | a location whose layouts have no layers reads back from its record, each layout without display name and description |
| Worlds.Validate | packages/libs/mapstruct/src/world.ts:37-56 | null, then a non-object `typeof`, then a missing `locations` are rejected in that order; then every entry the `length` loop visits must be a valid location, errors unwrapped |
| Worlds.New | packages/libs/mapstruct/src/world.ts:164-187 | no options or no `locations` give an empty world; an array is validated entry by entry and stored as is; any other value is validated and stored alone |
| Worlds.FromDict | packages/libs/mapstruct/src/world.ts:62-71 | a validation failure is wrapped as not convertible; otherwise the constructor runs on `{locations}` |
| Worlds.FromString | packages/libs/mapstruct/src/world.ts:77-102 | a parse error, a null parse result and an invalid result each fail in their own way; otherwise the result is that of `from_dict` |
| Worlds.EntryToDict | packages/libs/mapstruct/src/world.ts:28 | calling `to_dict` on a stored record without its own callable `to_dict` is a TypeError |
| Worlds.ToDict | packages/libs/mapstruct/src/world.ts:22-31 | `{locations}` holds each entry's `to_dict` in order; the first failure aborts |
| Worlds.ArrayStoredVerbatim | packages/libs/mapstruct/src/world.ts:174-180 | from a valid record, an array of locations is stored entry for entry as the input records |
| Worlds.ArrayEntryErrorsWrapped | packages/libs/mapstruct/src/world.ts:50-53 | the first bad entry of a `locations` array makes `from_dict` fail with that entry's error, wrapped as not convertible |
| Worlds.LoneLocationCheckedOnlyByConstructor | packages/libs/mapstruct/src/world.ts:181-183 | a non-null, non-array, non-string `locations` passes validation; the constructor checks it and its error escapes unwrapped |
| Worlds.StringLocations | packages/libs/mapstruct/src/world.ts:50-53 | a non-empty string `locations` fails validation on its first character; the empty string passes and then fails in the constructor with a TypeError |
| Worlds.JsonWorldsCannotBeSerialised | packages/libs/mapstruct/src/world.ts:22-31 | any non-empty world built from JSON data fails `to_dict` with a TypeError |
| Worlds.TextWorldsCannotBeSerialised | packages/libs/mapstruct/src/world.ts:77-102 | the same holds for every non-empty world read from text |
| Worlds.EmptyRoundTrip | packages/libs/mapstruct/src/world.ts:22-31 | the empty world serialises to `{locations: []}`, which reads back to the empty world |
| Worlds.FromStringSkipsFromDictWrapping | packages/libs/mapstruct/src/world.ts:88-95 | for text that parses to a valid world, `from_string` returns the constructor's result, and the wrapping in `from_dict` never applies |

## Left out

- `World.from_file` (world.ts:108-163): a dynamic `fs` import, read streams, promise callbacks and `TextDecoder`; this is I/O and asynchrony.
- `parse_json` and `stringify_json` (util.ts:50-58): wrappers over the platform `JSON`. Parsing is the parameter `parse` of `Worlds.FromString`; text is not modelled.
- The `I_Implementation` interfaces and the `*Ctor` constants: they are checks on types and have no behaviour at run time. `index.ts` only re-exports.
- Numbers are an integer tag. Floating point, NaN and infinities are not modelled; the only question the code asks of a number is `typeof`.
- Error message strings: each error keeps the entity, key, index and cause its message shows.
- Objects with a `length` key of their own, and functions' `length`, are treated as having no `length` in the `World` validator's loop.
- Class instances are `NonPlain` and answer no key. A `Location` object placed directly in `World`'s options is therefore not modelled as passing validation. The same goes for a `Layer` the `Layout` constructor has pushed (`Layouts.ReadLayer`); its loop never reads one, so nothing observable depends on it.
- The entity constructors work on tree values. Aliasing and cycles exist only in the heap model of `copy_dict`, and the embedding lemmas connect the two.
- CopyDict.CopyFields: a field named `__proto__` is copied like any other key. In JavaScript, `clonedObj[key] = …` with that key calls the inherited prototype setter instead of creating an own property. The copy then loses the key; when its value is a record, an array or null, the copy also gets a different prototype, so a later `copy_dict` of it fails as unsupported. Records are taken to carry no `__proto__` key.
- CopyDict.CopyValue: for the same reason, a plain tree with a `__proto__` field does not copy to itself in JavaScript, and neither do the element records `Layers.New` copies or `Layers.RoundTrip` reads back. The model's claims hold for records without that key.
- Json.HasKey: arrays and functions are modelled with no keys of their own. In JavaScript every function has `name`, and an array or a function can be given own properties. So a function with `id`, `position` and `kind` assigned would pass `test_element`, and an array with an own `locations` would pass the `World` checks; the model rejects both.
- Records with duplicate keys read the first occurrence. JavaScript's ordering of integer-like keys ahead of the others is not modelled.
- Worlds.EntryToDict: the outcome of a record's own callable `to_dict` is the parameter `invoke`, because it is foreign code.

=== FILE: copy.dfy ===
/** `copy_dict` (util.ts): a deep copy that shares no container with its
    input and rejects re-entry into a container on the current recursion
    path. Aliasing and cycles need identity, so the input lives in a heap of
    containers; the copy is a fresh tree, a `Value`. */
module CopyDict {
  import opened Errors
  import opened Json

  type Ref = nat

  /** A position inside a container: a value that `typeof` does not call
      "object" is held inline, a container is held by reference. */
  datatype Slot = Inline(v: Value) | Ptr(ref: Ref)

  datatype Node =
    | ArrayNode(items: seq<Slot>)
    | RecordNode(fields: seq<(string, Slot)>)
    /** A Date, Map, Set, class instance or any other non-plain object. */
    | NonPlainNode

  type Heap = map<Ref, Node>

  /** Null, undefined, the primitives and functions: `copy_dict_value`
      returns them before looking at the seen set. */
  predicate Scalar(v: Value) {
    !IsObjectType(v)
  }

  predicate SlotIn(h: Heap, s: Slot) {
    match s
    case Inline(v) => Scalar(v)
    case Ptr(r) => r in h
  }

  predicate NodeIn(h: Heap, n: Node) {
    match n
    case ArrayNode(items) => forall i :: 0 <= i < |items| ==> SlotIn(h, items[i])
    case RecordNode(fields) => forall i :: 0 <= i < |fields| ==> SlotIn(h, fields[i].1)
    case NonPlainNode => true
  }

  /** Every reference in the heap points into it, as references always do. */
  predicate Closed(h: Heap) {
    forall r :: r in h ==> NodeIn(h, h[r])
  }

  lemma RemainingShrinks(h: Heap, seen: set<Ref>, r: Ref)
    requires r in h && r !in seen
    ensures |h.Keys - (seen + {r})| < |h.Keys - seen|
  {
    assert h.Keys - (seen + {r}) == (h.Keys - seen) - {r};
  }

  /** `copy_dict_value(s, seen)`, where `seen` holds the containers on the
      current recursion path. */
  function Copy(h: Heap, s: Slot, seen: set<Ref>): (r: Result<Value>)
    requires Closed(h) && SlotIn(h, s)
    ensures s.Inline? ==> r == Ok(s.v)
    ensures s.Ptr? && s.ref in seen ==> r == Fail(Cycle)
    ensures s.Ptr? && s.ref !in seen && h[s.ref].NonPlainNode? ==> r == Fail(Unsupported)
    ensures r.Ok? ==> Plain(r.value)
    decreases |h.Keys - seen|, 0, 0
  {
    match s
    case Inline(v) => Ok(v)
    case Ptr(ref) =>
      if ref in seen then Fail(Cycle)
      else
        RemainingShrinks(h, seen, ref);
        match h[ref]
        case ArrayNode(items) =>
          var c :- CopyItems(h, items, seen + {ref});
          Ok(Arr(c))
        case RecordNode(fields) =>
          var c :- CopyFields(h, fields, seen + {ref});
          Ok(Obj(c))
        case NonPlainNode => Fail(Unsupported)
  }

  /** `value.map(item => copy_dict_value(item, seen))`. */
  function CopyItems(h: Heap, items: seq<Slot>, seen: set<Ref>): (r: Result<seq<Value>>)
    requires Closed(h) && forall i :: 0 <= i < |items| ==> SlotIn(h, items[i])
    ensures r.Ok? ==> |r.value| == |items|
    ensures r.Ok? ==> forall i :: 0 <= i < |items| ==> Copy(h, items[i], seen) == Ok(r.value[i])
    ensures r.Fail? ==> exists i ::
      && 0 <= i < |items|
      && Copy(h, items[i], seen) == Fail(r.error)
      && forall j :: 0 <= j < i ==> Copy(h, items[j], seen).Ok?
    decreases |h.Keys - seen|, 1, |items|
  {
    if |items| == 0 then Ok([])
    else
      var c :- Copy(h, items[0], seen);
      var cs :- CopyItems(h, items[1..], seen);
      Ok([c] + cs)
  }

  /** The loop over `Object.keys(value)`: same keys, same order. */
  function CopyFields(h: Heap, fields: seq<(string, Slot)>, seen: set<Ref>): (r: Result<seq<(string, Value)>>)
    requires Closed(h) && forall i :: 0 <= i < |fields| ==> SlotIn(h, fields[i].1)
    ensures r.Ok? ==> |r.value| == |fields|
    ensures r.Ok? ==> forall i :: 0 <= i < |fields| ==>
      r.value[i].0 == fields[i].0 && Copy(h, fields[i].1, seen) == Ok(r.value[i].1)
    ensures r.Fail? ==> exists i ::
      && 0 <= i < |fields|
      && Copy(h, fields[i].1, seen) == Fail(r.error)
      && forall j :: 0 <= j < i ==> Copy(h, fields[j].1, seen).Ok?
    decreases |h.Keys - seen|, 1, |fields|
  {
    if |fields| == 0 then Ok([])
    else
      var c :- Copy(h, fields[0].1, seen);
      var cs :- CopyFields(h, fields[1..], seen);
      Ok([(fields[0].0, c)] + cs)
  }

  /** `copy_dict(root)`: every top-level call starts with an empty seen set. */
  function CopyRoot(h: Heap, root: Slot): (r: Result<Value>)
    requires Closed(h) && SlotIn(h, root)
    ensures r.Ok? ==> Plain(r.value)
  {
    Copy(h, root, {})
  }

  /** The same copy on a value that is already a tree: with no container
      shared, no cycle can arise, so the copy is the value itself or fails on
      the first non-plain object. */
  function CopyValue(v: Value): (r: Result<Value>)
    ensures r == (if Plain(v) then Ok(v) else Fail(Unsupported))
  {
    match v
    case NonPlain => Fail(Unsupported)
    case Arr(items) =>
      var c :- CopyValueItems(items);
      Ok(Arr(c))
    case Obj(fields) =>
      var c :- CopyValueFields(fields);
      Ok(Obj(c))
    case _ => Ok(v)
  }

  function CopyValueItems(items: seq<Value>): (r: Result<seq<Value>>)
    ensures r == (if forall i :: 0 <= i < |items| ==> Plain(items[i]) then Ok(items) else Fail(Unsupported))
  {
    if |items| == 0 then Ok([])
    else
      var c :- CopyValue(items[0]);
      var cs :- CopyValueItems(items[1..]);
      assert items == [items[0]] + items[1..];
      Ok([c] + cs)
  }

  function CopyValueFields(fields: seq<(string, Value)>): (r: Result<seq<(string, Value)>>)
    ensures r == (if forall i :: 0 <= i < |fields| ==> Plain(fields[i].1) then Ok(fields) else Fail(Unsupported))
  {
    if |fields| == 0 then Ok([])
    else
      assert fields[0].1 < fields[0];
      var c :- CopyValue(fields[0].1);
      var cs :- CopyValueFields(fields[1..]);
      assert fields == [fields[0]] + fields[1..];
      Ok([(fields[0].0, c)] + cs)
  }
}

=== FILE: copy_facts.dfy ===
/** What `copy_dict` promises: element-wise and key-wise copies, rejection of
    ancestors only, and agreement with the tree view on values that share
    nothing. */
module CopyDictFacts {
  import opened Errors
  import opened Json
  import opened CopyDict

  /** Copying an array yields an array of the same length whose i-th entry is
      the copy of the i-th input entry, made with the array on the path. */
  lemma CopyArrayElementwise(h: Heap, ref: Ref, seen: set<Ref>)
    requires Closed(h) && ref in h && ref !in seen && h[ref].ArrayNode?
    ensures var items := h[ref].items;
      Copy(h, Ptr(ref), seen).Ok? <==> forall i :: 0 <= i < |items| ==> Copy(h, items[i], seen + {ref}).Ok?
    ensures var items := h[ref].items; var r := Copy(h, Ptr(ref), seen);
      r.Ok? ==>
        && r.value.Arr?
        && |r.value.items| == |items|
        && forall i :: 0 <= i < |items| ==> Copy(h, items[i], seen + {ref}) == Ok(r.value.items[i])
  {
    RemainingShrinks(h, seen, ref);
  }

  /** Copying a plain record yields a record with the same own keys in the
      same order, each value copied with the record on the path. */
  lemma CopyRecordFieldwise(h: Heap, ref: Ref, seen: set<Ref>)
    requires Closed(h) && ref in h && ref !in seen && h[ref].RecordNode?
    ensures var fields := h[ref].fields;
      Copy(h, Ptr(ref), seen).Ok? <==> forall i :: 0 <= i < |fields| ==> Copy(h, fields[i].1, seen + {ref}).Ok?
    ensures var fields := h[ref].fields; var r := Copy(h, Ptr(ref), seen);
      r.Ok? ==>
        && r.value.Obj?
        && |r.value.fields| == |fields|
        && forall i :: 0 <= i < |fields| ==>
             r.value.fields[i].0 == fields[i].0 && Copy(h, fields[i].1, seen + {ref}) == Ok(r.value.fields[i].1)
  {
    RemainingShrinks(h, seen, ref);
  }

  /** A successful copy stays the same when fewer containers are on the path:
      the path can only add cycle failures, so a container left by one branch
      does not affect its siblings. */
  lemma {:induction false} FewerSeenSameCopy(h: Heap, s: Slot, seen: set<Ref>, fewer: set<Ref>)
    requires Closed(h) && SlotIn(h, s) && fewer <= seen
    requires Copy(h, s, seen).Ok?
    ensures Copy(h, s, fewer) == Copy(h, s, seen)
    decreases |h.Keys - seen|, 0, 0
  {
    match s
    case Inline(_) =>
    case Ptr(ref) =>
      RemainingShrinks(h, seen, ref);
      match h[ref]
      case ArrayNode(items) =>
        FewerSeenSameItems(h, items, seen + {ref}, fewer + {ref});
      case RecordNode(fields) =>
        FewerSeenSameFields(h, fields, seen + {ref}, fewer + {ref});
      case NonPlainNode =>
  }

  lemma {:induction false} FewerSeenSameItems(h: Heap, items: seq<Slot>, seen: set<Ref>, fewer: set<Ref>)
    requires Closed(h) && (forall i :: 0 <= i < |items| ==> SlotIn(h, items[i])) && fewer <= seen
    requires CopyItems(h, items, seen).Ok?
    ensures CopyItems(h, items, fewer) == CopyItems(h, items, seen)
    decreases |h.Keys - seen|, 1, |items|
  {
    if |items| > 0 {
      FewerSeenSameCopy(h, items[0], seen, fewer);
      FewerSeenSameItems(h, items[1..], seen, fewer);
    }
  }

  lemma {:induction false} FewerSeenSameFields(h: Heap, fields: seq<(string, Slot)>, seen: set<Ref>, fewer: set<Ref>)
    requires Closed(h) && (forall i :: 0 <= i < |fields| ==> SlotIn(h, fields[i].1)) && fewer <= seen
    requires CopyFields(h, fields, seen).Ok?
    ensures CopyFields(h, fields, fewer) == CopyFields(h, fields, seen)
    decreases |h.Keys - seen|, 1, |fields|
  {
    if |fields| > 0 {
      FewerSeenSameCopy(h, fields[0].1, seen, fewer);
      FewerSeenSameFields(h, fields[1..], seen, fewer);
    }
  }

  // ---- Acyclic heaps ---------------------------------------------------

  predicate SlotBelow(s: Slot, rank: Ref -> nat, bound: nat) {
    s.Ptr? ==> rank(s.ref) < bound
  }

  predicate ChildrenBelow(n: Node, rank: Ref -> nat, bound: nat) {
    match n
    case ArrayNode(items) => forall i :: 0 <= i < |items| ==> SlotBelow(items[i], rank, bound)
    case RecordNode(fields) => forall i :: 0 <= i < |fields| ==> SlotBelow(fields[i].1, rank, bound)
    case NonPlainNode => true
  }

  /** Every container's children rank strictly below it: the heap has no
      cycle, though a container may be shared by several parents. */
  predicate Ranked(h: Heap, rank: Ref -> nat) {
    forall r :: r in h ==> ChildrenBelow(h[r], rank, rank(r))
  }

  predicate AboveAll(seen: set<Ref>, rank: Ref -> nat, bound: nat) {
    forall q :: q in seen ==> bound < rank(q)
  }

  /** On an acyclic heap the copy never reports a cycle, however containers
      are shared: only re-entry into an ancestor is rejected. */
  lemma {:induction false} RankedNeverCycles(h: Heap, rank: Ref -> nat, s: Slot, seen: set<Ref>)
    requires Closed(h) && SlotIn(h, s) && Ranked(h, rank)
    requires s.Ptr? ==> AboveAll(seen, rank, rank(s.ref))
    ensures Copy(h, s, seen) != Fail(Cycle)
    decreases |h.Keys - seen|, 0, 0
  {
    match s
    case Inline(_) =>
    case Ptr(ref) =>
      assert ref !in seen;
      RemainingShrinks(h, seen, ref);
      match h[ref]
      case ArrayNode(items) =>
        RankedItemsNeverCycle(h, rank, items, seen + {ref}, rank(ref));
      case RecordNode(fields) =>
        RankedFieldsNeverCycle(h, rank, fields, seen + {ref}, rank(ref));
      case NonPlainNode =>
  }

  lemma {:induction false} RankedItemsNeverCycle(h: Heap, rank: Ref -> nat, items: seq<Slot>, seen: set<Ref>, bound: nat)
    requires Closed(h) && Ranked(h, rank) && forall i :: 0 <= i < |items| ==> SlotIn(h, items[i])
    requires forall i :: 0 <= i < |items| ==> SlotBelow(items[i], rank, bound)
    requires forall q :: q in seen ==> bound <= rank(q)
    ensures CopyItems(h, items, seen) != Fail(Cycle)
    decreases |h.Keys - seen|, 1, |items|
  {
    forall i | 0 <= i < |items|
      ensures Copy(h, items[i], seen) != Fail(Cycle)
    {
      RankedNeverCycles(h, rank, items[i], seen);
    }
  }

  lemma {:induction false} RankedFieldsNeverCycle(h: Heap, rank: Ref -> nat, fields: seq<(string, Slot)>, seen: set<Ref>, bound: nat)
    requires Closed(h) && Ranked(h, rank) && forall i :: 0 <= i < |fields| ==> SlotIn(h, fields[i].1)
    requires forall i :: 0 <= i < |fields| ==> SlotBelow(fields[i].1, rank, bound)
    requires forall q :: q in seen ==> bound <= rank(q)
    ensures CopyFields(h, fields, seen) != Fail(Cycle)
    decreases |h.Keys - seen|, 1, |fields|
  {
    forall i | 0 <= i < |fields|
      ensures Copy(h, fields[i].1, seen) != Fail(Cycle)
    {
      RankedNeverCycles(h, rank, fields[i].1, seen);
    }
  }

  /** A top-level copy of an acyclic heap reports no cycle. */
  lemma RankedRootNeverCycles(h: Heap, rank: Ref -> nat, root: Slot)
    requires Closed(h) && SlotIn(h, root) && Ranked(h, rank)
    ensures CopyRoot(h, root) != Fail(Cycle)
  {
    RankedNeverCycles(h, rank, root, {});
  }

  /** A slot ranks above every container it may reach. */
  function SlotRank(s: Slot, rank: Ref -> nat): nat {
    if s.Ptr? then rank(s.ref) + 1 else 0
  }

  /** The tree an acyclic heap denotes, read off by recursion on rank with no
      path set: each container is unfolded wherever it is referenced, and
      only a non-plain object stops the unfolding. */
  function Unfold(h: Heap, rank: Ref -> nat, s: Slot): (r: Result<Value>)
    requires Closed(h) && SlotIn(h, s) && Ranked(h, rank)
    ensures s.Inline? ==> r == Ok(s.v)
    ensures r.Fail? ==> r.error == Unsupported
    ensures r.Ok? ==> Plain(r.value)
    ensures (forall q :: q in h ==> !h[q].NonPlainNode?) ==> r.Ok?
    decreases SlotRank(s, rank), 0, 0
  {
    match s
    case Inline(v) => Ok(v)
    case Ptr(ref) =>
      match h[ref]
      case ArrayNode(items) =>
        var c :- UnfoldItems(h, rank, items, rank(ref));
        Ok(Arr(c))
      case RecordNode(fields) =>
        var c :- UnfoldFields(h, rank, fields, rank(ref));
        Ok(Obj(c))
      case NonPlainNode => Fail(Unsupported)
  }

  function UnfoldItems(h: Heap, rank: Ref -> nat, items: seq<Slot>, bound: nat): (r: Result<seq<Value>>)
    requires Closed(h) && Ranked(h, rank) && forall i :: 0 <= i < |items| ==> SlotIn(h, items[i])
    requires forall i :: 0 <= i < |items| ==> SlotBelow(items[i], rank, bound)
    ensures r.Fail? ==> r.error == Unsupported
    ensures r.Ok? ==> |r.value| == |items| && forall i :: 0 <= i < |items| ==> Plain(r.value[i])
    ensures (forall q :: q in h ==> !h[q].NonPlainNode?) ==> r.Ok?
    decreases bound, 1, |items|
  {
    if |items| == 0 then Ok([])
    else
      assert SlotBelow(items[0], rank, bound);
      var c :- Unfold(h, rank, items[0]);
      var cs :- UnfoldItems(h, rank, items[1..], bound);
      Ok([c] + cs)
  }

  function UnfoldFields(h: Heap, rank: Ref -> nat, fields: seq<(string, Slot)>, bound: nat): (r: Result<seq<(string, Value)>>)
    requires Closed(h) && Ranked(h, rank) && forall i :: 0 <= i < |fields| ==> SlotIn(h, fields[i].1)
    requires forall i :: 0 <= i < |fields| ==> SlotBelow(fields[i].1, rank, bound)
    ensures r.Fail? ==> r.error == Unsupported
    ensures r.Ok? ==> |r.value| == |fields| && forall i :: 0 <= i < |fields| ==>
      r.value[i].0 == fields[i].0 && Plain(r.value[i].1)
    ensures (forall q :: q in h ==> !h[q].NonPlainNode?) ==> r.Ok?
    decreases bound, 1, |fields|
  {
    if |fields| == 0 then Ok([])
    else
      assert SlotBelow(fields[0].1, rank, bound);
      var c :- Unfold(h, rank, fields[0].1);
      var cs :- UnfoldFields(h, rank, fields[1..], bound);
      Ok([(fields[0].0, c)] + cs)
  }

  /** On an acyclic heap, with the path holding only ancestors, the copy is
      exactly the unfolded tree: the path set never fires, shared containers
      are copied once per reference, and the result is a success unless a
      non-plain object is reachable. */
  lemma {:induction false} CopyIsUnfold(h: Heap, rank: Ref -> nat, s: Slot, seen: set<Ref>)
    requires Closed(h) && SlotIn(h, s) && Ranked(h, rank)
    requires s.Ptr? ==> AboveAll(seen, rank, rank(s.ref))
    ensures Copy(h, s, seen) == Unfold(h, rank, s)
    decreases |h.Keys - seen|, 0, 0
  {
    match s
    case Inline(_) =>
    case Ptr(ref) =>
      assert ref !in seen;
      RemainingShrinks(h, seen, ref);
      match h[ref]
      case ArrayNode(items) =>
        CopyItemsIsUnfold(h, rank, items, seen + {ref}, rank(ref));
      case RecordNode(fields) =>
        CopyFieldsIsUnfold(h, rank, fields, seen + {ref}, rank(ref));
      case NonPlainNode =>
  }

  lemma {:induction false} CopyItemsIsUnfold(h: Heap, rank: Ref -> nat, items: seq<Slot>, seen: set<Ref>, bound: nat)
    requires Closed(h) && Ranked(h, rank) && forall i :: 0 <= i < |items| ==> SlotIn(h, items[i])
    requires forall i :: 0 <= i < |items| ==> SlotBelow(items[i], rank, bound)
    requires forall q :: q in seen ==> bound <= rank(q)
    ensures CopyItems(h, items, seen) == UnfoldItems(h, rank, items, bound)
    decreases |h.Keys - seen|, 1, |items|
  {
    if |items| > 0 {
      CopyIsUnfold(h, rank, items[0], seen);
      CopyItemsIsUnfold(h, rank, items[1..], seen, bound);
    }
  }

  lemma {:induction false} CopyFieldsIsUnfold(h: Heap, rank: Ref -> nat, fields: seq<(string, Slot)>, seen: set<Ref>, bound: nat)
    requires Closed(h) && Ranked(h, rank) && forall i :: 0 <= i < |fields| ==> SlotIn(h, fields[i].1)
    requires forall i :: 0 <= i < |fields| ==> SlotBelow(fields[i].1, rank, bound)
    requires forall q :: q in seen ==> bound <= rank(q)
    ensures CopyFields(h, fields, seen) == UnfoldFields(h, rank, fields, bound)
    decreases |h.Keys - seen|, 1, |fields|
  {
    if |fields| > 0 {
      CopyIsUnfold(h, rank, fields[0].1, seen);
      CopyFieldsIsUnfold(h, rank, fields[1..], seen, bound);
    }
  }

  /** A top-level copy of an acyclic heap is its unfolded tree; with no
      non-plain object in the heap it always succeeds. */
  lemma RankedRootCopyIsUnfold(h: Heap, rank: Ref -> nat, root: Slot)
    requires Closed(h) && SlotIn(h, root) && Ranked(h, rank)
    ensures CopyRoot(h, root) == Unfold(h, rank, root)
    ensures (forall q :: q in h ==> !h[q].NonPlainNode?) ==> CopyRoot(h, root).Ok?
  {
    CopyIsUnfold(h, rank, root, {});
  }

  /** A record holding itself: re-entry into an ancestor is a cycle. */
  lemma SelfReferenceIsCycle()
    ensures var h := map[0 := RecordNode([("self", Ptr(0))])];
      Closed(h) && CopyRoot(h, Ptr(0)) == Fail(Cycle)
  {
    var h := map[0 := RecordNode([("self", Ptr(0))])];
    assert Copy(h, Ptr(0), {0}) == Fail(Cycle);
    assert CopyFields(h, [("self", Ptr(0))], {0}) == Fail(Cycle);
  }

  /** One record in two sibling positions of an array copies to two equal,
      separate records. */
  lemma SharedSiblingsCopy()
    ensures var h := map[0 := ArrayNode([Ptr(1), Ptr(1)]), 1 := RecordNode([("x", Inline(Num(1)))])];
      Closed(h) && CopyRoot(h, Ptr(0)) == Ok(Arr([Obj([("x", Num(1))]), Obj([("x", Num(1))])]))
  {
    var h := map[0 := ArrayNode([Ptr(1), Ptr(1)]), 1 := RecordNode([("x", Inline(Num(1)))])];
    var rec := Obj([("x", Num(1))]);
    var fields := [("x", Inline(Num(1)))];
    assert fields[1..] == [];
    assert CopyFields(h, fields[1..], {0, 1}) == Ok([]);
    var cf := CopyFields(h, fields, {0, 1});
    assert cf.value[0] == ("x", Num(1));
    assert cf.value == [("x", Num(1))];
    assert Copy(h, Ptr(1), {0}) == Ok(rec);
    var ci := CopyItems(h, [Ptr(1), Ptr(1)], {0});
    assert ci.value[0] == rec && ci.value[1] == rec;
    assert ci.value == [rec, rec];
    assert {} + {0} == {0};
    assert Copy(h, Ptr(0), {}) == Ok(Arr([rec, rec]));
  }
}

=== FILE: embedding.dfy ===
/** Laying a tree value out in a heap with a fresh container for every array
    and record, and the bridge between the two views of `copy_dict`: the heap
    copy of such a layout is the tree copy of the value. */
module Embedding {
  import opened Errors
  import opened Json
  import opened CopyDict

  datatype Embedded = Embedded(root: Slot, heap: Heap, next: Ref)
  datatype EmbeddedItems = EmbeddedItems(slots: seq<Slot>, heap: Heap, next: Ref)
  datatype EmbeddedFields = EmbeddedFields(slots: seq<(string, Slot)>, heap: Heap, next: Ref)

  /** The heap holds exactly the references lo .. hi - 1. */
  ghost predicate Spans(h: Heap, lo: Ref, hi: Ref) {
    lo <= hi && forall r :: r in h <==> lo <= r < hi
  }

  /** `small` is part of `big`. */
  predicate Within(small: Heap, big: Heap) {
    forall r :: r in small ==> r in big && big[r] == small[r]
  }

  ghost predicate Outside(seen: set<Ref>, lo: Ref, hi: Ref) {
    forall r :: r in seen ==> r < lo || hi <= r
  }

  lemma SlotInGrows(h: Heap, h': Heap, s: Slot)
    requires SlotIn(h, s) && h.Keys <= h'.Keys
    ensures SlotIn(h', s)
  {
  }

  lemma NodeInGrows(h: Heap, h': Heap, n: Node)
    requires NodeIn(h, n) && h.Keys <= h'.Keys
    ensures NodeIn(h', n)
  {
    match n
    case ArrayNode(items) =>
      forall i | 0 <= i < |items| ensures SlotIn(h', items[i]) {
        SlotInGrows(h, h', items[i]);
      }
    case RecordNode(fields) =>
      forall i | 0 <= i < |fields| ensures SlotIn(h', fields[i].1) {
        SlotInGrows(h, h', fields[i].1);
      }
    case NonPlainNode =>
  }

  /** Two closed heaps combine into a closed heap. */
  lemma ClosedUnion(a: Heap, b: Heap)
    requires Closed(a) && Closed(b)
    ensures Closed(a + b)
  {
    forall r | r in a + b ensures NodeIn(a + b, (a + b)[r]) {
      if r in b {
        NodeInGrows(b, a + b, b[r]);
      } else {
        NodeInGrows(a, a + b, a[r]);
      }
    }
  }

  /** Adding a node whose children are already in a closed heap keeps it closed. */
  lemma ClosedAdd(h: Heap, r: Ref, n: Node)
    requires Closed(h) && NodeIn(h, n)
    ensures Closed(h[r := n])
  {
    var h' := h[r := n];
    forall q | q in h' ensures NodeIn(h', h'[q]) {
      if q == r {
        NodeInGrows(h, h', n);
      } else {
        NodeInGrows(h, h', h[q]);
      }
    }
  }

  /** Lays `v` out from reference `start` on, one fresh container per array,
      record and non-plain object. */
  function Embed(v: Value, start: Ref): (e: Embedded)
    ensures Spans(e.heap, start, e.next)
    ensures Closed(e.heap) && SlotIn(e.heap, e.root)
  {
    match v
    case Arr(items) =>
      var es := EmbedItems(items, start + 1);
      ClosedAdd(es.heap, start, ArrayNode(es.slots));
      Embedded(Ptr(start), es.heap[start := ArrayNode(es.slots)], es.next)
    case Obj(fields) =>
      var es := EmbedFields(fields, start + 1);
      ClosedAdd(es.heap, start, RecordNode(es.slots));
      Embedded(Ptr(start), es.heap[start := RecordNode(es.slots)], es.next)
    case NonPlain =>
      Embedded(Ptr(start), map[start := NonPlainNode], start + 1)
    case _ =>
      Embedded(Inline(v), map[], start)
  }

  function EmbedItems(items: seq<Value>, start: Ref): (e: EmbeddedItems)
    ensures Spans(e.heap, start, e.next)
    ensures Closed(e.heap)
    ensures |e.slots| == |items| && forall i :: 0 <= i < |items| ==> SlotIn(e.heap, e.slots[i])
  {
    if |items| == 0 then EmbeddedItems([], map[], start)
    else
      var e0 := Embed(items[0], start);
      var es := EmbedItems(items[1..], e0.next);
      ClosedUnion(e0.heap, es.heap);
      SlotInGrows(e0.heap, e0.heap + es.heap, e0.root);
      forall i | 0 <= i < |es.slots| ensures SlotIn(e0.heap + es.heap, es.slots[i]) {
        SlotInGrows(es.heap, e0.heap + es.heap, es.slots[i]);
      }
      EmbeddedItems([e0.root] + es.slots, e0.heap + es.heap, es.next)
  }

  function EmbedFields(fields: seq<(string, Value)>, start: Ref): (e: EmbeddedFields)
    ensures Spans(e.heap, start, e.next)
    ensures Closed(e.heap)
    ensures |e.slots| == |fields|
    ensures forall i :: 0 <= i < |fields| ==> e.slots[i].0 == fields[i].0 && SlotIn(e.heap, e.slots[i].1)
  {
    if |fields| == 0 then EmbeddedFields([], map[], start)
    else
      assert fields[0].1 < fields[0];
      var e0 := Embed(fields[0].1, start);
      var es := EmbedFields(fields[1..], e0.next);
      ClosedUnion(e0.heap, es.heap);
      SlotInGrows(e0.heap, e0.heap + es.heap, e0.root);
      forall i | 0 <= i < |es.slots| ensures SlotIn(e0.heap + es.heap, es.slots[i].1) {
        SlotInGrows(es.heap, e0.heap + es.heap, es.slots[i].1);
      }
      EmbeddedFields([(fields[0].0, e0.root)] + es.slots, e0.heap + es.heap, es.next)
  }

  /** The heap copy of a layout, taken inside any larger heap and with any
      path that avoids the layout's references, is the tree copy. */
  lemma {:induction false} CopyEmbedded(v: Value, start: Ref, h: Heap, seen: set<Ref>)
    requires Closed(h) && Within(Embed(v, start).heap, h)
    requires Outside(seen, start, Embed(v, start).next)
    ensures SlotIn(h, Embed(v, start).root)
    ensures Copy(h, Embed(v, start).root, seen) == CopyValue(v)
  {
    var e := Embed(v, start);
    SlotInGrows(e.heap, h, e.root);
    match v
    case Arr(items) =>
      var es := EmbedItems(items, start + 1);
      assert Within(es.heap, h);
      CopyEmbeddedItems(items, start + 1, h, seen + {start});
    case Obj(fields) =>
      var es := EmbedFields(fields, start + 1);
      assert Within(es.heap, h);
      CopyEmbeddedFields(fields, start + 1, h, seen + {start});
    case NonPlain =>
    case _ =>
  }

  lemma {:induction false} CopyEmbeddedItems(items: seq<Value>, start: Ref, h: Heap, seen: set<Ref>)
    requires Closed(h) && Within(EmbedItems(items, start).heap, h)
    requires Outside(seen, start, EmbedItems(items, start).next)
    ensures forall i :: 0 <= i < |items| ==> SlotIn(h, EmbedItems(items, start).slots[i])
    ensures CopyItems(h, EmbedItems(items, start).slots, seen) == CopyValueItems(items)
  {
    var e := EmbedItems(items, start);
    forall i | 0 <= i < |items| ensures SlotIn(h, e.slots[i]) {
      SlotInGrows(e.heap, h, e.slots[i]);
    }
    if |items| > 0 {
      var e0 := Embed(items[0], start);
      var es := EmbedItems(items[1..], e0.next);
      assert Within(e0.heap, h);
      assert Within(es.heap, h);
      CopyEmbedded(items[0], start, h, seen);
      CopyEmbeddedItems(items[1..], e0.next, h, seen);
      assert e.slots[1..] == es.slots;
    }
  }

  lemma {:induction false} CopyEmbeddedFields(fields: seq<(string, Value)>, start: Ref, h: Heap, seen: set<Ref>)
    requires Closed(h) && Within(EmbedFields(fields, start).heap, h)
    requires Outside(seen, start, EmbedFields(fields, start).next)
    ensures forall i :: 0 <= i < |fields| ==> SlotIn(h, EmbedFields(fields, start).slots[i].1)
    ensures CopyFields(h, EmbedFields(fields, start).slots, seen) == CopyValueFields(fields)
  {
    var e := EmbedFields(fields, start);
    forall i | 0 <= i < |fields| ensures SlotIn(h, e.slots[i].1) {
      SlotInGrows(e.heap, h, e.slots[i].1);
    }
    if |fields| > 0 {
      assert fields[0].1 < fields[0];
      var e0 := Embed(fields[0].1, start);
      var es := EmbedFields(fields[1..], e0.next);
      assert Within(e0.heap, h);
      assert Within(es.heap, h);
      CopyEmbedded(fields[0].1, start, h, seen);
      CopyEmbeddedFields(fields[1..], e0.next, h, seen);
      assert e.slots[1..] == es.slots;
    }
  }

  /** `copy_dict` of a freshly laid-out value agrees with the tree copy: it
      returns the value itself when no non-plain object occurs in it. */
  lemma CopyOfFreshLayout(v: Value)
    ensures Closed(Embed(v, 0).heap) && SlotIn(Embed(v, 0).heap, Embed(v, 0).root)
    ensures CopyRoot(Embed(v, 0).heap, Embed(v, 0).root) == CopyValue(v)
    ensures Plain(v) ==> CopyRoot(Embed(v, 0).heap, Embed(v, 0).root) == Ok(v)
  {
    CopyEmbedded(v, 0, Embed(v, 0).heap, {});
  }

  /** Copying a copy changes nothing: the result of `copy_dict` is plain, so
      both the tree copy and the heap copy of its fresh layout return it. */
  lemma CopyOfCopyUnchanged(h: Heap, root: Slot)
    requires Closed(h) && SlotIn(h, root) && CopyRoot(h, root).Ok?
    ensures var w := CopyRoot(h, root).value;
      && CopyValue(w) == Ok(w)
      && CopyRoot(Embed(w, 0).heap, Embed(w, 0).root) == Ok(w)
  {
    CopyOfFreshLayout(CopyRoot(h, root).value);
  }
}

=== FILE: errors.dfy ===
/** Failures raised by the validators, constructors and the deep copy.
    Message strings are not modelled; each error records the entity, key
    or index that the original message names, and wrapping errors keep
    their cause. */
module Errors {

  /** The entity whose validator raised a schema error. */
  datatype Schema = ElementSchema | LayerSchema | LayoutSchema | LocationSchema | WorldSchema

  datatype Err =
    /** A JavaScript TypeError: `key in v` on null, undefined or a primitive,
        a property read on null or undefined, or a call of a missing method. */
    | TypeFault
    /** "it is null or undefined" */
    | Nullish(schema: Schema)
    /** World: `typeof` is not "object" */
    | NotAnObject(schema: Schema)
    /** A required key is absent (or, where the validator demands it, null or undefined). */
    | MissingKey(schema: Schema, key: string)
    | NotString(schema: Schema, key: string)
    | NotArray(schema: Schema, key: string)
    /** The three failures of a coordinate test, in the order they are tried. */
    | CoordinateNotArray
    | CoordinateWrongLength
    | CoordinateNotNumbers
    /** An element whose position failed the coordinate test. */
    | BadPosition(cause: Err)
    /** A child at `index` of a collection failed its own validation. */
    | BadChild(schema: Schema, index: nat, cause: Err)
    /** World from a record: the record failed validation. */
    | NotConvertible(cause: Err)
    /** World from text. */
    | ParseFailed(message: string)
    | ParsedNullish
    | ParsedInvalid(cause: Err)
    /** Deep copy. */
    | Cycle
    | Unsupported

  /** Success with a value, or the error that aborted the operation. */
  datatype Result<+T> = Ok(value: T) | Fail(error: Err) {

    predicate IsFailure() {
      Fail?
    }

    function PropagateFailure<U>(): Result<U>
      requires Fail?
    {
      Fail(error)
    }

    function Extract(): T
      requires Ok?
    {
      value
    }
  }
}

=== FILE: geometry.dfy ===
/** Geometry elements (geometry.ts): the leaf records of a layer, and the two
    validators the library applies to them. */
module Geometry {
  import opened Errors
  import opened Json

  /** The numeric enum `Kind`, in declaration order. */
  datatype Kind = None | Marker | Point | Rectangle | Custom | Polygon

  /** The kinds in declaration order. */
  const Kinds: seq<Kind> := [None, Marker, Point, Rectangle, Custom, Polygon]

  /** The number a record stores for each kind: its position in declaration
      order, so distinct kinds get distinct numbers. */
  function KindCode(k: Kind): (c: nat)
    ensures c < |Kinds| && Kinds[c] == k
  {
    match k
    case None => 0
    case Marker => 1
    case Point => 2
    case Rectangle => 3
    case Custom => 4
    case Polygon => 5
  }

  /** The kind an enum number denotes. */
  function KindOfCode(c: nat): (k: Kind)
    requires c < |Kinds|
    ensures KindCode(k) == c
  {
    Kinds[c]
  }

  /** The numbering is one-to-one: reading back a kind's number gives the
      kind, and two kinds with the same number are the same kind. */
  lemma KindCodeRoundTrip(k: Kind, k': Kind)
    ensures KindOfCode(KindCode(k)) == k
    ensures KindCode(k) == KindCode(k') ==> k == k'
  {
  }

  /** A point, or the corner of a shape: `[x, y]`. */
  datatype Coordinate = Coordinate(x: int, y: int)

  function CoordinateValue(c: Coordinate): Value {
    Arr([Num(c.x), Num(c.y)])
  }

  /** The per-kind fields of the element interfaces. */
  datatype Shape =
    | NoShape
    | MarkerShape
    | PointShape
    | RectangleShape(width: int, height: int)
    | CustomShape(vertices: seq<Coordinate>)
    | PolygonShape(sides: int, radius: int)

  /** A well-typed element; `meta` is undefined when absent. */
  datatype Element = Element(id: string, position: Coordinate, meta: Value, shape: Shape)

  function KindOf(s: Shape): Kind {
    match s
    case NoShape => None
    case MarkerShape => Marker
    case PointShape => Point
    case RectangleShape(_, _) => Rectangle
    case CustomShape(_) => Custom
    case PolygonShape(_, _) => Polygon
  }

  function ShapeFields(s: Shape): seq<(string, Value)> {
    match s
    case RectangleShape(w, h) => [("width", Num(w)), ("height", Num(h))]
    case CustomShape(vs) => [("vertices", Arr(seq(|vs|, i requires 0 <= i < |vs| => CoordinateValue(vs[i]))))]
    case PolygonShape(n, r) => [("sides", Num(n)), ("radius", Num(r))]
    case _ => []
  }

  /** The record form of a typed element. */
  function ElementValue(e: Element): Value {
    Obj([("id", Str(e.id)), ("position", CoordinateValue(e.position)), ("kind", Num(KindCode(KindOf(e.shape))))]
        + ShapeFields(e.shape)
        + (if e.meta == Undef then [] else [("meta", e.meta)]))
  }

  /** `test_coordinate`: an array, then of length two, then of two numbers. */
  function TestCoordinate(v: Value): (r: Result<()>)
    ensures !v.Arr? ==> r == Fail(CoordinateNotArray)
    ensures v.Arr? && |v.items| != 2 ==> r == Fail(CoordinateWrongLength)
    ensures v.Arr? && |v.items| == 2 && r.Fail? ==> r.error == CoordinateNotNumbers
    ensures r.Ok? <==> exists c :: CoordinateValue(c) == v
    ensures r.Fail? ==> r.error in {CoordinateNotArray, CoordinateWrongLength, CoordinateNotNumbers}
  {
    if !v.Arr? then Fail(CoordinateNotArray)
    else if |v.items| != 2 then Fail(CoordinateWrongLength)
    else if !v.items[0].Num? || !v.items[1].Num? then Fail(CoordinateNotNumbers)
    else
      assert CoordinateValue(Coordinate(v.items[0].n, v.items[1].n)) == v;
      Ok(())
  }

  /** The coordinate an accepted value denotes. */
  function DecodeCoordinate(v: Value): (c: Coordinate)
    requires TestCoordinate(v).Ok?
    ensures CoordinateValue(c) == v
  {
    Coordinate(v.items[0].n, v.items[1].n)
  }

  /** Decoding an encoded coordinate gives it back, and encoding a decoded
      one gives back the accepted value. */
  lemma CoordinateRoundTrip(v: Value, c: Coordinate)
    ensures TestCoordinate(CoordinateValue(c)).Ok? && DecodeCoordinate(CoordinateValue(c)) == c
    ensures TestCoordinate(v).Ok? ==> CoordinateValue(DecodeCoordinate(v)) == v
  {
  }

  const ElementKeys: seq<string> := ["id", "position", "kind"]

  /** `test_element`: the three keys present and not null, in that order;
      then a string id; then a position passing `test_coordinate`, whose
      error is wrapped. Nothing else is read. */
  function TestElement(d: Value): (r: Result<()>)
    ensures !IsObjectType(d) && !d.Func? ==> r == Fail(TypeFault)
    ensures d.Arr? || d.Func? || d.NonPlain? ==> r == Fail(MissingKey(ElementSchema, "id"))
    ensures d.Obj? && !RealityCheck(Lookup(d.fields, "id")) ==> r == Fail(MissingKey(ElementSchema, "id"))
    ensures d.Obj? && RealityCheck(Lookup(d.fields, "id")) && !RealityCheck(Lookup(d.fields, "position"))
      ==> r == Fail(MissingKey(ElementSchema, "position"))
    ensures d.Obj? && RealityCheck(Lookup(d.fields, "id")) && RealityCheck(Lookup(d.fields, "position"))
      && !RealityCheck(Lookup(d.fields, "kind"))
      ==> r == Fail(MissingKey(ElementSchema, "kind"))
    ensures d.Obj? && RealityCheck(Lookup(d.fields, "position")) && RealityCheck(Lookup(d.fields, "kind"))
      && RealityCheck(Lookup(d.fields, "id")) && !Lookup(d.fields, "id").Str?
      ==> r == Fail(NotString(ElementSchema, "id"))
    ensures d.Obj? && Lookup(d.fields, "id").Str? && RealityCheck(Lookup(d.fields, "kind"))
      && TestCoordinate(Lookup(d.fields, "position")).Fail?
      && RealityCheck(Lookup(d.fields, "position"))
      ==> r == Fail(BadPosition(TestCoordinate(Lookup(d.fields, "position")).error))
  {
    assert ElementKeys[0] == "id" && ElementKeys[1] == "position" && ElementKeys[2] == "kind";
    var _ :- RequireKeys(d, ElementSchema, ElementKeys, true);
    if !Get(d, "id").Str? then Fail(NotString(ElementSchema, "id"))
    else match TestCoordinate(Get(d, "position"))
      case Fail(e) => Fail(BadPosition(e))
      case Ok(_) => Ok(())
  }

  /** The records `test_element` accepts: a plain record with a string id, a
      position that is the record form of a coordinate, and any kind that is
      not null or undefined. */
  ghost predicate IsElementRecord(d: Value) {
    && d.Obj?
    && Lookup(d.fields, "id").Str?
    && (exists c :: Lookup(d.fields, "position") == CoordinateValue(c))
    && RealityCheck(Lookup(d.fields, "kind"))
  }

  lemma TestElementAcceptsExactly(d: Value)
    ensures TestElement(d).Ok? <==> IsElementRecord(d)
  {
    if d.Obj? {
      if IsElementRecord(d) {
        assert forall i :: 0 <= i < |ElementKeys| ==> Carries(d.fields, ElementKeys[i], true);
      }
    }
  }

  /** Every well-typed element passes `test_element`. */
  lemma TypedElementsPass(e: Element)
    ensures TestElement(ElementValue(e)) == Ok(())
  {
    var d := ElementValue(e);
    assert d.fields[1..][0].0 == "position";
    assert d.fields[1..][1..][0].0 == "kind";
    assert Lookup(d.fields, "position") == CoordinateValue(e.position);
    assert Lookup(d.fields, "kind") == Num(KindCode(KindOf(e.shape)));
    TestElementAcceptsExactly(d);
  }

  /** The value of `kind` is only checked for presence: any value other than
      null or undefined passes, enum member or not, and no kind-specific field
      or `meta` is looked at. */
  lemma KindIsNeverChecked(id: string, c: Coordinate, kind: Value, rest: seq<(string, Value)>)
    ensures TestElement(Obj([("id", Str(id)), ("position", CoordinateValue(c)), ("kind", kind)] + rest)).Ok?
      <==> RealityCheck(kind)
  {
    var d := Obj([("id", Str(id)), ("position", CoordinateValue(c)), ("kind", kind)] + rest);
    assert d.fields[1..][0].0 == "position";
    assert d.fields[1..][1..][0].0 == "kind";
    assert Lookup(d.fields, "position") == CoordinateValue(c);
    assert Lookup(d.fields, "kind") == kind;
    TestElementAcceptsExactly(d);
  }
}

=== FILE: json.dfy ===
/** The untyped input and output of the library: a JavaScript value as the
    validators see it (util.ts, `reality_check`). */
module Json {
  import opened Errors

  /** A JavaScript value reachable from a record. Numbers carry an integer
      only as a tag; `Func` is anything whose `typeof` is "function" and
      `NonPlain` is an object that is neither an array nor a plain record
      (a Date, Map, Set or class instance). */
  datatype Value =
    | Undef
    | Null
    | Bool(b: bool)
    | Num(n: int)
    | Str(s: string)
    | Arr(items: seq<Value>)
    | Obj(fields: seq<(string, Value)>)
    | Func
    | NonPlain

  predicate IsNullish(v: Value) {
    v.Undef? || v.Null?
  }

  /** `reality_check`: neither null nor undefined. */
  function RealityCheck(v: Value): bool {
    v != Null && v != Undef
  }

  /** `typeof v === "object"` (null excluded, as every caller tests it first). */
  predicate IsObjectType(v: Value) {
    v.Arr? || v.Obj? || v.NonPlain?
  }

  /** Whether a record has an own key. */
  predicate HasField(fields: seq<(string, Value)>, key: string) {
    exists i :: 0 <= i < |fields| && fields[i].0 == key
  }

  /** The value stored under the first occurrence of `key`, or undefined. */
  function Lookup(fields: seq<(string, Value)>, key: string): (v: Value)
    ensures !HasField(fields, key) ==> v == Undef
    ensures |fields| > 0 && fields[0].0 == key ==> v == fields[0].1
  {
    if |fields| == 0 then Undef
    else if fields[0].0 == key then fields[0].1
    else Lookup(fields[1..], key)
  }

  /** The first field carrying `key` decides the lookup. */
  lemma LookupFirst(fields: seq<(string, Value)>, key: string, i: nat)
    requires i < |fields| && fields[i].0 == key
    requires forall j :: 0 <= j < i ==> fields[j].0 != key
    ensures HasField(fields, key) && Lookup(fields, key) == fields[i].1
  {
    if i > 0 {
      LookupFirst(fields[1..], key, i - 1);
    }
  }

  /** `key in v`. A TypeError on null, undefined and primitives. Plain
      records answer from their own keys. Arrays, functions and non-plain
      objects are modelled as carrying no key at all: an array or function
      with assigned properties, and the `name` every function has, are not
      represented. */
  function HasKey(v: Value, key: string): (r: Result<bool>)
    ensures r.Ok? <==> IsObjectType(v) || v.Func?
    ensures r == Ok(true) <==> v.Obj? && HasField(v.fields, key)
  {
    match v
    case Obj(fields) => Ok(HasField(fields, key))
    case Arr(_) => Ok(false)
    case Func => Ok(false)
    case NonPlain => Ok(false)
    case _ => Fail(TypeFault)
  }

  /** `v[key]` on a value that is not null or undefined. */
  function Get(v: Value, key: string): Value
    requires !IsNullish(v)
  {
    if v.Obj? then Lookup(v.fields, key) else Undef
  }

  /** `v.length` and `v[i]` as a `for (i = 0; i < v.length; i++)` loop sees
      them: an array yields its items and a string its one-character
      strings; reading `length` of null or undefined is a TypeError; for any
      other value `length` is undefined and the loop does not run. */
  function Indexed(v: Value): (r: Result<seq<Value>>)
    ensures r.Fail? <==> IsNullish(v)
    ensures v.Arr? ==> r == Ok(v.items)
    ensures r.Ok? ==> |r.value| == (if v.Arr? then |v.items| else if v.Str? then |v.s| else 0)
    ensures v.Str? ==> r.Ok? && forall i :: 0 <= i < |v.s| ==> r.value[i] == Str([v.s[i]])
  {
    match v
    case Undef => Fail(TypeFault)
    case Null => Fail(TypeFault)
    case Arr(items) => Ok(items)
    case Str(s) => Ok(seq(|s|, i requires 0 <= i < |s| => Str([s[i]])))
    case _ => Ok([])
  }

  /** The record has `key`, and when `nonNullish` holds its value is neither
      null nor undefined. */
  predicate Carries(fields: seq<(string, Value)>, key: string, nonNullish: bool) {
    HasField(fields, key) && (!nonNullish || RealityCheck(Lookup(fields, key)))
  }

  /** The required-keys loop the validators share: for each key in order,
      `!(key in d)` (and, when `nonNullish`, `!reality_check(d[key])`) throws
      a missing-key error naming that key. */
  function RequireKeys(d: Value, schema: Schema, keys: seq<string>, nonNullish: bool): (r: Result<()>)
    ensures |keys| > 0 && !IsObjectType(d) && !d.Func? ==> r == Fail(TypeFault)
    ensures |keys| > 0 && (d.Arr? || d.Func? || d.NonPlain?) ==> r == Fail(MissingKey(schema, keys[0]))
    ensures r.Ok? <==> |keys| == 0 || (d.Obj? && forall i :: 0 <= i < |keys| ==> Carries(d.fields, keys[i], nonNullish))
    ensures d.Obj? ==> forall i :: 0 <= i < |keys| ==>
      (!Carries(d.fields, keys[i], nonNullish) && forall j :: 0 <= j < i ==> Carries(d.fields, keys[j], nonNullish))
      ==> r == Fail(MissingKey(schema, keys[i]))
  {
    if |keys| == 0 then Ok(())
    else
      var present :- HasKey(d, keys[0]);
      if !present || (nonNullish && !RealityCheck(Get(d, keys[0]))) then Fail(MissingKey(schema, keys[0]))
      else
        var rest := RequireKeys(d, schema, keys[1..], nonNullish);
        assert forall i :: 1 <= i < |keys| ==> keys[i] == keys[1..][i - 1];
        rest
  }

  /** The required-keys loop sees a record only through which keys it
      carries. */
  lemma {:induction false} RequireKeysSeesOnlyCarries(d1: Value, d2: Value, schema: Schema, keys: seq<string>, nonNullish: bool)
    requires d1.Obj? && d2.Obj?
    requires forall i :: 0 <= i < |keys| ==> (Carries(d1.fields, keys[i], nonNullish) <==> Carries(d2.fields, keys[i], nonNullish))
    ensures RequireKeys(d1, schema, keys, nonNullish) == RequireKeys(d2, schema, keys, nonNullish)
  {
    if |keys| > 0 {
      assert Carries(d1.fields, keys[0], nonNullish) <==> Carries(d2.fields, keys[0], nonNullish);
      RequireKeysSeesOnlyCarries(d1, d2, schema, keys[1..], nonNullish);
    }
  }

  /** No non-plain object occurs anywhere inside the value: exactly the
      values the deep copy accepts. */
  predicate Plain(v: Value) {
    match v
    case NonPlain => false
    case Arr(items) => forall i :: 0 <= i < |items| ==> Plain(items[i])
    case Obj(fields) => forall i :: 0 <= i < |fields| ==> Plain(fields[i].1)
    case _ => true
  }

  /** `reality_check` is false exactly on null and undefined, and true on the
      falsy values 0, "" and false. */
  lemma RealityCheckOnFalsyValues(v: Value)
    ensures !RealityCheck(v) <==> IsNullish(v)
    ensures RealityCheck(Num(0)) && RealityCheck(Str("")) && RealityCheck(Bool(false))
  {
  }
}

=== FILE: layer.dfy ===
/** `Layer` (layer.ts): a named list of geometry elements, each held as a
    deep copy of the element record it was built from. */
module Layers {
  import opened Errors
  import opened Json
  import opened Sequences
  import opened CopyDict
  import opened Geometry

  /** The fields of a constructed Layer. `display_name` and `description`
      are copied from the input unchecked, so they may hold any value. */
  datatype Layer = Layer(id: string, name: string, displayName: Value, description: Value, geometry: seq<Value>)

  const LayerKeys: seq<string> := ["id", "name", "geometry"]

  /** The part of a layer record checked before its elements: a plain record
      with string `id` and `name` and an array `geometry`. */
  predicate HeaderOk(d: Value) {
    && d.Obj?
    && Lookup(d.fields, "id").Str?
    && Lookup(d.fields, "name").Str?
    && Lookup(d.fields, "geometry").Arr?
  }

  function GeometryOf(d: Value): seq<Value>
    requires HeaderOk(d)
  {
    Lookup(d.fields, "geometry").items
  }

  /** `Layer.test_compatible`. */
  function Validate(d: Value): (r: Result<()>)
    ensures !IsObjectType(d) && !d.Func? ==> r == Fail(TypeFault)
    ensures d.Arr? || d.Func? || d.NonPlain? ==> r == Fail(MissingKey(LayerSchema, "id"))
    ensures d.Obj? ==> forall i :: 0 <= i < |LayerKeys| ==>
      (!Carries(d.fields, LayerKeys[i], true) && forall j :: 0 <= j < i ==> Carries(d.fields, LayerKeys[j], true))
      ==> r == Fail(MissingKey(LayerSchema, LayerKeys[i]))
    ensures d.Obj? && (forall i :: 0 <= i < |LayerKeys| ==> Carries(d.fields, LayerKeys[i], true))
      && !Lookup(d.fields, "id").Str?
      ==> r == Fail(NotString(LayerSchema, "id"))
    ensures d.Obj? && (forall i :: 0 <= i < |LayerKeys| ==> Carries(d.fields, LayerKeys[i], true))
      && Lookup(d.fields, "id").Str? && !Lookup(d.fields, "name").Str?
      ==> r == Fail(NotString(LayerSchema, "name"))
    ensures d.Obj? && (forall i :: 0 <= i < |LayerKeys| ==> Carries(d.fields, LayerKeys[i], true))
      && Lookup(d.fields, "id").Str? && Lookup(d.fields, "name").Str? && !Lookup(d.fields, "geometry").Arr?
      ==> r == Fail(NotArray(LayerSchema, "geometry"))
    ensures r.Ok? <==> HeaderOk(d) && forall i :: 0 <= i < |GeometryOf(d)| ==> TestElement(GeometryOf(d)[i]).Ok?
    ensures r.Fail? && r.error.BadChild? ==>
      && HeaderOk(d)
      && r.error.schema == LayerSchema
      && r.error.index < |GeometryOf(d)|
      && TestElement(GeometryOf(d)[r.error.index]) == Fail(r.error.cause)
      && forall j :: 0 <= j < r.error.index ==> TestElement(GeometryOf(d)[j]).Ok?
  {
    assert LayerKeys[0] == "id" && LayerKeys[1] == "name" && LayerKeys[2] == "geometry";
    var _ :- RequireKeys(d, LayerSchema, LayerKeys, true);
    if !Get(d, "id").Str? then Fail(NotString(LayerSchema, "id"))
    else if !Get(d, "name").Str? then Fail(NotString(LayerSchema, "name"))
    else if !Get(d, "geometry").Arr? then Fail(NotArray(LayerSchema, "geometry"))
    else match CheckAll(Get(d, "geometry").items, TestElement)
      case Pass => Ok(())
      case FailAt(i, e) =>
        assert TestElement(GeometryOf(d)[i]).Fail?;
        Fail(BadChild(LayerSchema, i, e))
  }

  /** The constructor: fields copied verbatim, each element through
      `copy_dict`. */
  function New(options: Value): (r: Result<Layer>)
    requires HeaderOk(options)
    ensures r.Ok? <==> forall i :: 0 <= i < |GeometryOf(options)| ==> Plain(GeometryOf(options)[i])
    ensures r.Fail? ==> r.error == Unsupported
    ensures r.Ok? ==>
      && r.value.id == Lookup(options.fields, "id").s
      && r.value.name == Lookup(options.fields, "name").s
      && r.value.displayName == Lookup(options.fields, "display_name")
      && r.value.description == Lookup(options.fields, "description")
      && r.value.geometry == GeometryOf(options)
  {
    var items := Get(options, "geometry").items;
    assert items == GeometryOf(options);
    match MapAll(items, CopyValue)
    case Fail(e) =>
      var i :| 0 <= i < |items| && CopyValue(items[i]) == Fail(e);
      assert !Plain(items[i]);
      Fail(e)
    case Ok(geometry) =>
      assert geometry == items;
      Ok(Layer(Get(options, "id").s, Get(options, "name").s, Get(options, "display_name"), Get(options, "description"), geometry))
  }

  /** `Layer.from_dict`: validate, then construct. */
  function FromDict(d: Value): (r: Result<Layer>)
    ensures Validate(d).Fail? ==> r == Fail(Validate(d).error)
    ensures Validate(d).Ok? ==> r == New(d)
  {
    var _ :- Validate(d);
    New(d)
  }

  /** `to_dict`: `display_name` is set to the name, and each element is
      passed through `copy_dict` again. */
  function ToDict(l: Layer): (r: Result<Value>)
    ensures r.Ok? <==> forall i :: 0 <= i < |l.geometry| ==> Plain(l.geometry[i])
    ensures r.Ok? ==> r.value == LayerRecord(l.id, l.name, Str(l.name), l.description, l.geometry)
    ensures r.Fail? ==> r.error == Unsupported
  {
    var geometry :- MapAll(l.geometry, CopyValue);
    assert geometry == l.geometry;
    Ok(Obj([("id", Str(l.id)), ("name", Str(l.name)), ("display_name", Str(l.name)),
            ("description", l.description), ("geometry", Arr(geometry))]))
  }

  function LayerRecord(id: string, name: string, displayName: Value, description: Value, geometry: seq<Value>): Value {
    Obj([("id", Str(id)), ("name", Str(name)), ("display_name", displayName),
         ("description", description), ("geometry", Arr(geometry))])
  }

  /** What a layer record built by `to_dict` answers to each key. */
  lemma LayerRecordLookups(id: string, name: string, displayName: Value, description: Value, geometry: seq<Value>)
    ensures var d := LayerRecord(id, name, displayName, description, geometry);
      && Lookup(d.fields, "id") == Str(id)
      && Lookup(d.fields, "name") == Str(name)
      && Lookup(d.fields, "display_name") == displayName
      && Lookup(d.fields, "description") == description
      && Lookup(d.fields, "geometry") == Arr(geometry)
  {
    var d := LayerRecord(id, name, displayName, description, geometry);
    LookupFirst(d.fields, "id", 0);
    LookupFirst(d.fields, "name", 1);
    LookupFirst(d.fields, "display_name", 2);
    LookupFirst(d.fields, "description", 3);
    LookupFirst(d.fields, "geometry", 4);
  }

  /** A layer whose elements are plain and pass `test_element`: what
      construction produces. */
  predicate Valid(l: Layer) {
    forall i :: 0 <= i < |l.geometry| ==> Plain(l.geometry[i]) && TestElement(l.geometry[i]).Ok?
  }

  /** A constructed layer holds, in order, exactly the validated input
      elements. */
  lemma ConstructedLayerIsValid(d: Value)
    requires FromDict(d).Ok?
    ensures HeaderOk(d) && FromDict(d).value.geometry == GeometryOf(d)
    ensures Valid(FromDict(d).value)
  {
  }

  /** Round trip: from_dict(to_dict(l)) succeeds and gives back `l`, except
      that the display name has become the name. */
  lemma {:induction false} RoundTrip(l: Layer)
    requires Valid(l)
    ensures ToDict(l).Ok?
    ensures FromDict(ToDict(l).value) == Ok(l.(displayName := Str(l.name)))
  {
    var d := ToDict(l).value;
    LayerRecordLookups(l.id, l.name, Str(l.name), l.description, l.geometry);
    assert HeaderOk(d) && GeometryOf(d) == l.geometry;
    assert Validate(d).Ok?;
    var m := New(d).value;
    assert m == l.(displayName := Str(l.name));
  }

  /** `to_dict` reports the name as the display name, whatever was stored. */
  lemma ToDictDisplayNameIsName(l: Layer)
    requires ToDict(l).Ok?
    ensures Lookup(ToDict(l).value.fields, "display_name") == Str(l.name)
    ensures Lookup(ToDict(l).value.fields, "geometry") == Arr(l.geometry)
  {
    LayerRecordLookups(l.id, l.name, Str(l.name), l.description, l.geometry);
  }

  /** A failing element is reported with its index; the first one wins. */
  lemma FirstBadElementReported(d: Value, i: nat)
    requires HeaderOk(d) && i < |GeometryOf(d)|
    requires TestElement(GeometryOf(d)[i]).Fail?
    requires forall j :: 0 <= j < i ==> TestElement(GeometryOf(d)[j]).Ok?
    ensures Validate(d) == Fail(BadChild(LayerSchema, i, TestElement(GeometryOf(d)[i]).error))
    ensures FromDict(d) == Fail(Validate(d).error)
  {
    CheckAllFirstFailure(GeometryOf(d), TestElement, i);
  }
}

=== FILE: layout.dfy ===
/** `Layout` (layout.ts): a named list of layers. */
module Layouts {
  import opened Errors
  import opened Json
  import opened Sequences
  import Layers

  datatype Layout = Layout(id: string, name: string, displayName: Value, description: Value, layers: seq<Layers.Layer>)

  const LayoutKeys: seq<string> := ["id", "name", "layers"]

  /** A plain record with string `id` and `name` and an array `layers`. */
  predicate HeaderOk(d: Value) {
    && d.Obj?
    && Lookup(d.fields, "id").Str?
    && Lookup(d.fields, "name").Str?
    && Lookup(d.fields, "layers").Arr?
  }

  function LayersOf(d: Value): seq<Value>
    requires HeaderOk(d)
  {
    Lookup(d.fields, "layers").items
  }

  /** `Layout.test_compatible`: not null; the three keys present (their
      values may be null); string id and name; an array of layers, each a
      valid layer, the first invalid one reported with its index. */
  function Validate(d: Value): (r: Result<()>)
    ensures IsNullish(d) ==> r == Fail(Nullish(LayoutSchema))
    ensures d.Bool? || d.Num? || d.Str? ==> r == Fail(TypeFault)
    ensures d.Arr? || d.Func? || d.NonPlain? ==> r == Fail(MissingKey(LayoutSchema, "id"))
    ensures d.Obj? ==> forall i :: 0 <= i < |LayoutKeys| ==>
      (!HasField(d.fields, LayoutKeys[i]) && forall j :: 0 <= j < i ==> HasField(d.fields, LayoutKeys[j]))
      ==> r == Fail(MissingKey(LayoutSchema, LayoutKeys[i]))
    ensures d.Obj? && (forall i :: 0 <= i < |LayoutKeys| ==> HasField(d.fields, LayoutKeys[i]))
      && !Lookup(d.fields, "id").Str?
      ==> r == Fail(NotString(LayoutSchema, "id"))
    ensures d.Obj? && (forall i :: 0 <= i < |LayoutKeys| ==> HasField(d.fields, LayoutKeys[i]))
      && Lookup(d.fields, "id").Str? && !Lookup(d.fields, "name").Str?
      ==> r == Fail(NotString(LayoutSchema, "name"))
    ensures d.Obj? && (forall i :: 0 <= i < |LayoutKeys| ==> HasField(d.fields, LayoutKeys[i]))
      && Lookup(d.fields, "id").Str? && Lookup(d.fields, "name").Str? && !Lookup(d.fields, "layers").Arr?
      ==> r == Fail(NotArray(LayoutSchema, "layers"))
    ensures r.Ok? <==> HeaderOk(d) && forall i :: 0 <= i < |LayersOf(d)| ==> Layers.Validate(LayersOf(d)[i]).Ok?
    ensures r.Fail? && r.error.BadChild? ==>
      && HeaderOk(d)
      && r.error.schema == LayoutSchema
      && r.error.index < |LayersOf(d)|
      && Layers.Validate(LayersOf(d)[r.error.index]) == Fail(r.error.cause)
      && forall j :: 0 <= j < r.error.index ==> Layers.Validate(LayersOf(d)[j]).Ok?
  {
    assert LayoutKeys[0] == "id" && LayoutKeys[1] == "name" && LayoutKeys[2] == "layers";
    if IsNullish(d) then Fail(Nullish(LayoutSchema))
    else
      var _ :- RequireKeys(d, LayoutSchema, LayoutKeys, false);
      if !Get(d, "id").Str? then Fail(NotString(LayoutSchema, "id"))
      else if !Get(d, "name").Str? then Fail(NotString(LayoutSchema, "name"))
      else if !Get(d, "layers").Arr? then Fail(NotArray(LayoutSchema, "layers"))
      else match CheckAll(Get(d, "layers").items, Layers.Validate)
        case Pass => Ok(())
        case FailAt(i, e) =>
          assert Layers.Validate(LayersOf(d)[i]).Fail?;
          Fail(BadChild(LayoutSchema, i, e))
  }

  /** `this.layers[i]`: an index past the end reads undefined; an entry
      already pushed is a `Layer` instance, a non-plain object. */
  function ReadLayer(built: seq<Layers.Layer>, i: nat): (v: Value)
    ensures i >= |built| ==> v == Undef
    ensures i < |built| ==> v.NonPlain?
  {
    if i < |built| then NonPlain else Undef
  }

  /** The constructor's loop, as written: step i pushes
      `Layer.from_dict(this.layers[i])`, reading the list being built rather
      than the input. Started from an empty list, the list holds exactly i
      entries at step i, so the read is past the end and `Layer.from_dict`
      throws on undefined. */
  function BuildLayers(count: nat, i: nat, built: seq<Layers.Layer>): (r: Result<seq<Layers.Layer>>)
    requires i <= count
    ensures i == count ==> r == Ok(built)
    ensures i == |built| && i < count ==> r == Fail(TypeFault)
    decreases count - i
  {
    if i == count then Ok(built)
    else
      var layer :- Layers.FromDict(ReadLayer(built, i));
      BuildLayers(count, i + 1, built + [layer])
  }

  /** The constructor: id, name, display name and description copied, then
      the layer loop. */
  function New(options: Value): (r: Result<Layout>)
    requires HeaderOk(options)
    ensures |LayersOf(options)| == 0 ==> r == Ok(Layout(Lookup(options.fields, "id").s, Lookup(options.fields, "name").s,
      Lookup(options.fields, "display_name"), Lookup(options.fields, "description"), []))
    ensures |LayersOf(options)| > 0 ==> r == Fail(TypeFault)
  {
    var layers :- BuildLayers(|LayersOf(options)|, 0, []);
    Ok(Layout(Get(options, "id").s, Get(options, "name").s, Get(options, "display_name"),
              Get(options, "description"), layers))
  }

  /** `Layout.from_dict`: validate, then construct. */
  function FromDict(d: Value): (r: Result<Layout>)
    ensures Validate(d).Fail? ==> r == Fail(Validate(d).error)
    ensures Validate(d).Ok? ==> r == New(d)
  {
    var _ :- Validate(d);
    New(d)
  }

  /** `to_dict`: only id, name and the layers' own records, in order. */
  function ToDict(l: Layout): (r: Result<Value>)
    ensures r.Ok? <==> forall i :: 0 <= i < |l.layers| ==> Layers.ToDict(l.layers[i]).Ok?
    ensures r.Ok? ==>
      && r.value.Obj?
      && |r.value.fields| == 3
      && r.value.fields[0] == ("id", Str(l.id))
      && r.value.fields[1] == ("name", Str(l.name))
      && r.value.fields[2].0 == "layers"
      && r.value.fields[2].1.Arr?
      && |r.value.fields[2].1.items| == |l.layers|
      && forall i :: 0 <= i < |l.layers| ==> Layers.ToDict(l.layers[i]) == Ok(r.value.fields[2].1.items[i])
    ensures r.Fail? ==> exists i ::
      && 0 <= i < |l.layers|
      && Layers.ToDict(l.layers[i]) == Fail(r.error)
      && forall j :: 0 <= j < i ==> Layers.ToDict(l.layers[j]).Ok?
  {
    var layers :- MapAll(l.layers, Layers.ToDict);
    Ok(Obj([("id", Str(l.id)), ("name", Str(l.name)), ("layers", Arr(layers))]))
  }

  /** The record `to_dict` builds, read back. */
  lemma LayoutRecordLookups(d: Value, id: string, name: string, layers: seq<Value>)
    requires d == Obj([("id", Str(id)), ("name", Str(name)), ("layers", Arr(layers))])
    ensures Lookup(d.fields, "id") == Str(id) && Lookup(d.fields, "name") == Str(name)
    ensures Lookup(d.fields, "layers") == Arr(layers)
    ensures !HasField(d.fields, "display_name") && !HasField(d.fields, "description")
  {
    LookupFirst(d.fields, "id", 0);
    LookupFirst(d.fields, "name", 1);
    LookupFirst(d.fields, "layers", 2);
  }

  /** The constructor bug: a valid record builds a layout only when its layer
      list is empty, and then with no layers; any non-empty list makes
      construction fail with a TypeError. */
  lemma ConstructorReadsItsOwnList(d: Value)
    requires Validate(d).Ok?
    ensures HeaderOk(d)
    ensures FromDict(d) == if |LayersOf(d)| == 0
      then Ok(Layout(Lookup(d.fields, "id").s, Lookup(d.fields, "name").s,
                     Lookup(d.fields, "display_name"), Lookup(d.fields, "description"), []))
      else Fail(TypeFault)
  {
  }

  /** An invalid layer is reported with its index and its own error; the
      first one wins, and no layout is built. */
  lemma FirstBadLayerReported(d: Value, i: nat)
    requires HeaderOk(d) && i < |LayersOf(d)|
    requires Layers.Validate(LayersOf(d)[i]).Fail?
    requires forall j :: 0 <= j < i ==> Layers.Validate(LayersOf(d)[j]).Ok?
    ensures Validate(d) == Fail(BadChild(LayoutSchema, i, Layers.Validate(LayersOf(d)[i]).error))
    ensures FromDict(d) == Fail(Validate(d).error)
  {
    assert LayoutKeys[0] == "id" && LayoutKeys[1] == "name" && LayoutKeys[2] == "layers";
    assert forall k :: 0 <= k < |LayoutKeys| ==> Carries(d.fields, LayoutKeys[k], false);
    CheckAllFirstFailure(LayersOf(d), Layers.Validate, i);
  }

  /** Round trip, as written: `to_dict` drops the display name and the
      description, so reading its record back loses them; and a layout with
      layers cannot be read back at all. */
  lemma {:induction false} RoundTrip(l: Layout)
    requires forall i :: 0 <= i < |l.layers| ==> Layers.Valid(l.layers[i])
    ensures ToDict(l).Ok?
    ensures FromDict(ToDict(l).value) ==
      if |l.layers| == 0 then Ok(l.(displayName := Undef, description := Undef)) else Fail(TypeFault)
  {
    forall i | 0 <= i < |l.layers| ensures Layers.ToDict(l.layers[i]).Ok? {
      Layers.RoundTrip(l.layers[i]);
    }
    var d := ToDict(l).value;
    var layers := d.fields[2].1.items;
    LayoutRecordLookups(d, l.id, l.name, layers);
    forall i | 0 <= i < |layers| ensures Layers.Validate(layers[i]).Ok? {
      Layers.RoundTrip(l.layers[i]);
    }
    assert Validate(d).Ok?;
    ConstructorReadsItsOwnList(d);
  }
}

=== FILE: location.dfy ===
/** `Location` (location.ts): a named place owning one layout or a list of
    them, always held as a list. */
module Locations {
  import opened Errors
  import opened Json
  import opened Sequences
  import Layouts

  datatype Location = Location(id: string, name: string, displayName: Value, description: Value, layouts: seq<Layouts.Layout>)

  const LocationKeys: seq<string> := ["id", "name", "layouts"]

  /** A plain record with the key `layouts` and string `id` and `name`. */
  predicate HeaderOk(d: Value) {
    && d.Obj?
    && Lookup(d.fields, "id").Str?
    && Lookup(d.fields, "name").Str?
    && HasField(d.fields, "layouts")
  }

  /** The layouts a record holds: the array's entries, or the one value. */
  function LayoutsOf(d: Value): seq<Value>
    requires d.Obj?
  {
    var ls := Lookup(d.fields, "layouts");
    if ls.Arr? then ls.items else [ls]
  }

  /** The header checks of `Location.test_compatible`: not null; the three
      keys present (their values may be null); string id and name. */
  function CheckHeader(d: Value): (r: Result<()>)
    ensures IsNullish(d) ==> r == Fail(Nullish(LocationSchema))
    ensures d.Bool? || d.Num? || d.Str? ==> r == Fail(TypeFault)
    ensures d.Arr? || d.Func? || d.NonPlain? ==> r == Fail(MissingKey(LocationSchema, "id"))
    ensures d.Obj? ==> forall i :: 0 <= i < |LocationKeys| ==>
      (!HasField(d.fields, LocationKeys[i]) && forall j :: 0 <= j < i ==> HasField(d.fields, LocationKeys[j]))
      ==> r == Fail(MissingKey(LocationSchema, LocationKeys[i]))
    ensures d.Obj? && (forall i :: 0 <= i < |LocationKeys| ==> HasField(d.fields, LocationKeys[i]))
      && !Lookup(d.fields, "id").Str?
      ==> r == Fail(NotString(LocationSchema, "id"))
    ensures d.Obj? && (forall i :: 0 <= i < |LocationKeys| ==> HasField(d.fields, LocationKeys[i]))
      && Lookup(d.fields, "id").Str? && !Lookup(d.fields, "name").Str?
      ==> r == Fail(NotString(LocationSchema, "name"))
    ensures r.Ok? <==> HeaderOk(d)
  {
    assert LocationKeys[0] == "id" && LocationKeys[1] == "name" && LocationKeys[2] == "layouts";
    if IsNullish(d) then Fail(Nullish(LocationSchema))
    else
      var _ :- RequireKeys(d, LocationSchema, LocationKeys, false);
      if !Get(d, "id").Str? then Fail(NotString(LocationSchema, "id"))
      else if !Get(d, "name").Str? then Fail(NotString(LocationSchema, "name"))
      else Ok(())
  }

  /** `Location.test_compatible`: the header checks, then every layout
      valid, the first failure propagated as the layout's own error, with no
      index. A lone layout is checked directly, which is the same as checking
      the list holding it. */
  function Validate(d: Value): (r: Result<()>)
    ensures CheckHeader(d).Fail? ==> r == CheckHeader(d)
    ensures r.Ok? <==> HeaderOk(d) && forall i :: 0 <= i < |LayoutsOf(d)| ==> Layouts.Validate(LayoutsOf(d)[i]).Ok?
    ensures HeaderOk(d) && r.Fail? ==> exists i ::
      && 0 <= i < |LayoutsOf(d)|
      && Layouts.Validate(LayoutsOf(d)[i]) == r
      && forall j :: 0 <= j < i ==> Layouts.Validate(LayoutsOf(d)[j]).Ok?
  {
    var _ :- CheckHeader(d);
    match CheckAll(LayoutsOf(d), Layouts.Validate)
    case Pass => Ok(())
    case FailAt(_, e) => Fail(e)
  }

  /** The constructor: fields copied, and each layout built with
      `Layout.from_dict`, a lone layout becoming a list of one. */
  function New(options: Value): (r: Result<Location>)
    requires HeaderOk(options)
    ensures r.Ok? <==> forall i :: 0 <= i < |LayoutsOf(options)| ==> Layouts.FromDict(LayoutsOf(options)[i]).Ok?
    ensures r.Ok? ==>
      && r.value.id == Lookup(options.fields, "id").s
      && r.value.name == Lookup(options.fields, "name").s
      && r.value.displayName == Lookup(options.fields, "display_name")
      && r.value.description == Lookup(options.fields, "description")
      && |r.value.layouts| == |LayoutsOf(options)|
      && forall i :: 0 <= i < |LayoutsOf(options)| ==> Layouts.FromDict(LayoutsOf(options)[i]) == Ok(r.value.layouts[i])
    ensures r.Fail? ==> exists i ::
      && 0 <= i < |LayoutsOf(options)|
      && Layouts.FromDict(LayoutsOf(options)[i]) == Fail(r.error)
      && forall j :: 0 <= j < i ==> Layouts.FromDict(LayoutsOf(options)[j]).Ok?
  {
    var layouts :- MapAll(LayoutsOf(options), Layouts.FromDict);
    Ok(Location(Get(options, "id").s, Get(options, "name").s, Get(options, "display_name"),
                Get(options, "description"), layouts))
  }

  /** `Location.from_dict`: validate, then construct. */
  function FromDict(d: Value): (r: Result<Location>)
    ensures Validate(d).Fail? ==> r == Fail(Validate(d).error)
    ensures Validate(d).Ok? ==> r == New(d)
  {
    var _ :- Validate(d);
    New(d)
  }

  function LocationRecord(id: Value, name: Value, displayName: Value, description: Value, layouts: Value): Value {
    Obj([("id", id), ("name", name), ("display_name", displayName), ("description", description), ("layouts", layouts)])
  }

  lemma LocationRecordLookups(id: Value, name: Value, displayName: Value, description: Value, layouts: Value)
    ensures var d := LocationRecord(id, name, displayName, description, layouts);
      && Lookup(d.fields, "id") == id
      && Lookup(d.fields, "name") == name
      && Lookup(d.fields, "display_name") == displayName
      && Lookup(d.fields, "description") == description
      && Lookup(d.fields, "layouts") == layouts
      && HasField(d.fields, "layouts")
  {
    var d := LocationRecord(id, name, displayName, description, layouts);
    LookupFirst(d.fields, "id", 0);
    LookupFirst(d.fields, "name", 1);
    LookupFirst(d.fields, "display_name", 2);
    LookupFirst(d.fields, "description", 3);
    LookupFirst(d.fields, "layouts", 4);
  }

  /** `to_dict`: id, name, display name, description, and the layouts' own
      records, always as a list, in order. */
  function ToDict(l: Location): (r: Result<Value>)
    ensures r.Ok? <==> forall i :: 0 <= i < |l.layouts| ==> Layouts.ToDict(l.layouts[i]).Ok?
    ensures r.Ok? ==> exists ds: seq<Value> ::
      && r.value == LocationRecord(Str(l.id), Str(l.name), l.displayName, l.description, Arr(ds))
      && |ds| == |l.layouts|
      && forall i :: 0 <= i < |ds| ==> Layouts.ToDict(l.layouts[i]) == Ok(ds[i])
    ensures r.Fail? ==> exists i ::
      && 0 <= i < |l.layouts|
      && Layouts.ToDict(l.layouts[i]) == Fail(r.error)
      && forall j :: 0 <= j < i ==> Layouts.ToDict(l.layouts[j]).Ok?
  {
    var layouts :- MapAll(l.layouts, Layouts.ToDict);
    Ok(LocationRecord(Str(l.id), Str(l.name), l.displayName, l.description, Arr(layouts)))
  }

  lemma SameReadingsSameHeader(d1: Value, d2: Value)
    requires d1.Obj? && d2.Obj?
    requires HasField(d1.fields, "id") == HasField(d2.fields, "id")
    requires HasField(d1.fields, "name") == HasField(d2.fields, "name")
    requires HasField(d1.fields, "layouts") == HasField(d2.fields, "layouts")
    requires Lookup(d1.fields, "id") == Lookup(d2.fields, "id") && Lookup(d1.fields, "name") == Lookup(d2.fields, "name")
    ensures CheckHeader(d1) == CheckHeader(d2)
    ensures HeaderOk(d1) <==> HeaderOk(d2)
  {
    forall i | 0 <= i < |LocationKeys|
      ensures Carries(d1.fields, LocationKeys[i], false) <==> Carries(d2.fields, LocationKeys[i], false)
    {
      assert LocationKeys[0] == "id" && LocationKeys[1] == "name" && LocationKeys[2] == "layouts";
    }
    RequireKeysSeesOnlyCarries(d1, d2, LocationSchema, LocationKeys, false);
  }

  /** The validator and the constructor see a record only through the
      presence of the three keys, the values under id, name, display_name
      and description, and the layouts it holds. */
  lemma SameReadingsSameResult(d1: Value, d2: Value)
    requires d1.Obj? && d2.Obj?
    requires HasField(d1.fields, "id") == HasField(d2.fields, "id")
    requires HasField(d1.fields, "name") == HasField(d2.fields, "name")
    requires HasField(d1.fields, "layouts") == HasField(d2.fields, "layouts")
    requires Lookup(d1.fields, "id") == Lookup(d2.fields, "id") && Lookup(d1.fields, "name") == Lookup(d2.fields, "name")
    requires Lookup(d1.fields, "display_name") == Lookup(d2.fields, "display_name")
    requires Lookup(d1.fields, "description") == Lookup(d2.fields, "description")
    requires HasField(d1.fields, "layouts") ==> LayoutsOf(d1) == LayoutsOf(d2)
    ensures Validate(d1) == Validate(d2)
    ensures FromDict(d1) == FromDict(d2)
  {
    SameReadingsSameHeader(d1, d2);
    if HeaderOk(d1) {
      assert LayoutsOf(d1) == LayoutsOf(d2);
    } else {
      assert Validate(d1) == CheckHeader(d1) && Validate(d2) == CheckHeader(d2);
    }
  }

  /** A lone layout and a list holding just that layout give the same
      verdict and the same location. */
  lemma SingleLayoutIsListOfOne(id: Value, name: Value, displayName: Value, description: Value, layout: Value)
    requires !layout.Arr?
    ensures var single := LocationRecord(id, name, displayName, description, layout);
      var listed := LocationRecord(id, name, displayName, description, Arr([layout]));
      && Validate(single) == Validate(listed)
      && FromDict(single) == FromDict(listed)
  {
    LocationRecordLookups(id, name, displayName, description, layout);
    LocationRecordLookups(id, name, displayName, description, Arr([layout]));
    SameReadingsSameResult(LocationRecord(id, name, displayName, description, layout),
                           LocationRecord(id, name, displayName, description, Arr([layout])));
  }

  /** A layout's error reaches the caller of the location validator as is:
      no location-level index or context is added. */
  lemma LayoutErrorsPropagateUnwrapped(d: Value, i: nat)
    requires HeaderOk(d) && i < |LayoutsOf(d)|
    requires Layouts.Validate(LayoutsOf(d)[i]).Fail?
    requires forall j :: 0 <= j < i ==> Layouts.Validate(LayoutsOf(d)[j]).Ok?
    ensures Validate(d) == Layouts.Validate(LayoutsOf(d)[i])
    ensures FromDict(d) == Fail(Layouts.Validate(LayoutsOf(d)[i]).error)
  {
    FirstBadLayoutDecides(d, i);
  }

  lemma FirstBadLayoutDecides(d: Value, i: nat)
    requires HeaderOk(d) && i < |LayoutsOf(d)|
    requires Layouts.Validate(LayoutsOf(d)[i]).Fail?
    requires forall j :: 0 <= j < i ==> Layouts.Validate(LayoutsOf(d)[j]).Ok?
    ensures Validate(d) == Layouts.Validate(LayoutsOf(d)[i])
  {
    assert CheckHeader(d).Ok?;
    CheckAllFirstFailure(LayoutsOf(d), Layouts.Validate, i);
  }

  /** With the layout constructor as written, a valid location record builds
      exactly when each of its layouts has an empty layer list. */
  lemma BuildsOnlyWithoutLayers(d: Value)
    requires Validate(d).Ok?
    ensures HeaderOk(d)
    ensures FromDict(d).Ok? <==> forall i :: 0 <= i < |LayoutsOf(d)| ==> |Layouts.LayersOf(LayoutsOf(d)[i])| == 0
    ensures FromDict(d).Fail? ==> FromDict(d) == Fail(TypeFault)
  {
    forall i | 0 <= i < |LayoutsOf(d)| ensures Layouts.Validate(LayoutsOf(d)[i]).Ok? {
    }
    forall i | 0 <= i < |LayoutsOf(d)|
      ensures Layouts.FromDict(LayoutsOf(d)[i]).Ok? <==> |Layouts.LayersOf(LayoutsOf(d)[i])| == 0
    {
      Layouts.ConstructorReadsItsOwnList(LayoutsOf(d)[i]);
    }
  }

  /** A layout as `to_dict` and then `from_dict` leave it: no display name,
      no description. */
  function Stripped(l: Layouts.Layout): Layouts.Layout {
    l.(displayName := Undef, description := Undef)
  }

  /** A record with string id and name whose layouts all read back
      builds the location holding what they read back to. */
  lemma ReadBack(id: string, name: string, displayName: Value, description: Value, ds: seq<Value>, layouts: seq<Layouts.Layout>)
    requires |ds| == |layouts|
    requires forall i :: 0 <= i < |ds| ==> Layouts.Validate(ds[i]).Ok? && Layouts.FromDict(ds[i]) == Ok(layouts[i])
    ensures FromDict(LocationRecord(Str(id), Str(name), displayName, description, Arr(ds)))
      == Ok(Location(id, name, displayName, description, layouts))
  {
    var d := LocationRecord(Str(id), Str(name), displayName, description, Arr(ds));
    LocationRecordLookups(Str(id), Str(name), displayName, description, Arr(ds));
    assert HeaderOk(d) && LayoutsOf(d) == ds;
    assert Validate(d).Ok?;
    assert New(d).Ok?;
    assert New(d).value.layouts == layouts;
  }

  /** A layout without layers reads back from its record, stripped. */
  lemma LayoutReadsBackStripped(l: Layouts.Layout, d: Value)
    requires l.layers == [] && Layouts.ToDict(l) == Ok(d)
    ensures Layouts.Validate(d).Ok? && Layouts.FromDict(d) == Ok(Stripped(l))
  {
    Layouts.RoundTrip(l);
  }

  /** The record `to_dict` gives for a location whose layouts have no
      layers, with the layouts' own records. */
  lemma RecordOfBuildable(l: Location) returns (ds: seq<Value>)
    requires forall i :: 0 <= i < |l.layouts| ==> l.layouts[i].layers == []
    ensures ToDict(l) == Ok(LocationRecord(Str(l.id), Str(l.name), l.displayName, l.description, Arr(ds)))
    ensures |ds| == |l.layouts| && forall i :: 0 <= i < |ds| ==> Layouts.ToDict(l.layouts[i]) == Ok(ds[i])
  {
    forall i | 0 <= i < |l.layouts| ensures Layouts.ToDict(l.layouts[i]).Ok? {
      Layouts.RoundTrip(l.layouts[i]);
    }
    ds :| && ToDict(l).value == LocationRecord(Str(l.id), Str(l.name), l.displayName, l.description, Arr(ds))
          && |ds| == |l.layouts|
          && forall i :: 0 <= i < |ds| ==> Layouts.ToDict(l.layouts[i]) == Ok(ds[i]);
  }

  /** Round trip for the locations that can be built (every layout without
      layers): reading back `to_dict` gives the same location, except that
      each layout has lost its display name and description. */
  lemma {:induction false} RoundTrip(l: Location)
    requires forall i :: 0 <= i < |l.layouts| ==> l.layouts[i].layers == []
    ensures ToDict(l).Ok?
    ensures FromDict(ToDict(l).value) == Ok(l.(layouts := seq(|l.layouts|, i requires 0 <= i < |l.layouts| => Stripped(l.layouts[i]))))
  {
    var ds := RecordOfBuildable(l);
    var stripped := seq(|l.layouts|, i requires 0 <= i < |l.layouts| => Stripped(l.layouts[i]));
    forall i | 0 <= i < |ds|
      ensures Layouts.Validate(ds[i]).Ok? && Layouts.FromDict(ds[i]) == Ok(stripped[i])
    {
      LayoutReadsBackStripped(l.layouts[i], ds[i]);
    }
    ReadBack(l.id, l.name, l.displayName, l.description, ds, stripped);
  }
}

=== FILE: sequences.dfy ===
/** The two loop shapes every entity uses over a list of children: test each
    child in index order and stop at the first failure, or build each child
    in index order and stop at the first failure. */
module Sequences {
  import opened Errors

  /** Outcome of testing a list: all passed, or the first failure and where. */
  datatype Verdict = Pass | FailAt(index: nat, cause: Err)

  /** A `for (i = 0; i < xs.length; i++) check(xs[i])` loop that throws on the
      first failing child. */
  function CheckAll<A>(xs: seq<A>, check: A -> Result<()>): (v: Verdict)
    ensures v.Pass? <==> forall i :: 0 <= i < |xs| ==> check(xs[i]).Ok?
    ensures v.FailAt? ==>
      && v.index < |xs|
      && check(xs[v.index]) == Fail(v.cause)
      && forall j :: 0 <= j < v.index ==> check(xs[j]).Ok?
  {
    if |xs| == 0 then Pass
    else match check(xs[0])
      case Fail(e) => FailAt(0, e)
      case Ok(_) =>
        match CheckAll(xs[1..], check)
        case Pass => Pass
        case FailAt(i, e) => FailAt(i + 1, e)
  }

  /** The first failure is the one at the lowest failing index. */
  lemma CheckAllFirstFailure<A>(xs: seq<A>, check: A -> Result<()>, i: nat)
    requires i < |xs| && check(xs[i]).Fail?
    requires forall j :: 0 <= j < i ==> check(xs[j]).Ok?
    ensures CheckAll(xs, check) == FailAt(i, check(xs[i]).error)
  {
  }

  /** A loop that builds `f(xs[i])` for each child in order, stopping at the
      first failure. */
  function MapAll<A, B>(xs: seq<A>, f: A -> Result<B>): (r: Result<seq<B>>)
    ensures r.Ok? <==> forall i :: 0 <= i < |xs| ==> f(xs[i]).Ok?
    ensures r.Ok? ==> |r.value| == |xs| && forall i :: 0 <= i < |xs| ==> f(xs[i]) == Ok(r.value[i])
    ensures r.Fail? ==> exists i :: 0 <= i < |xs| && f(xs[i]) == Fail(r.error) && forall j :: 0 <= j < i ==> f(xs[j]).Ok?
  {
    if |xs| == 0 then Ok([])
    else
      var y :- f(xs[0]);
      var ys :- MapAll(xs[1..], f);
      Ok([y] + ys)
  }

  /** The error of a failed build is the first failing child's error. */
  lemma MapAllFirstFailure<A, B>(xs: seq<A>, f: A -> Result<B>, i: nat)
    requires i < |xs| && f(xs[i]).Fail?
    requires forall j :: 0 <= j < i ==> f(xs[j]).Ok?
    ensures MapAll(xs, f) == Fail(f(xs[i]).error)
  {
  }
}

=== FILE: world.dfy ===
/** `World` (world.ts): the root object, a list of locations. The
    constructor stores each location record exactly as it was given. */
module Worlds {
  import opened Errors
  import opened Json
  import opened Sequences
  import Locations

  /** The stored entries are the records handed to the constructor, not
      `Location` objects. */
  datatype World = World(locations: seq<Value>)

  /** The outcome of `JSON.parse` on a text: a value, or the message of
      the exception it throws. */
  datatype ParseResult = Parsed(value: Value) | Unparsable(message: string)

  /** A value `JSON.parse` can produce: no undefined, no functions, no
      non-plain objects. */
  predicate JsonData(v: Value) {
    match v
    case Undef => false
    case Func => false
    case NonPlain => false
    case Arr(items) => forall i :: 0 <= i < |items| ==> JsonData(items[i])
    case Obj(fields) => forall i :: 0 <= i < |fields| ==> JsonData(fields[i].1)
    case _ => true
  }

  /** `World.test_compatible`: not null or undefined; `typeof` "object"; a
      `locations` key; then each entry the `length`/index loop visits is a
      valid location, the first failure propagated unchanged. */
  function Validate(d: Value): (r: Result<()>)
    ensures IsNullish(d) ==> r == Fail(Nullish(WorldSchema))
    ensures d.Bool? || d.Num? || d.Str? || d.Func? ==> r == Fail(NotAnObject(WorldSchema))
    ensures d.Arr? || d.NonPlain? ==> r == Fail(MissingKey(WorldSchema, "locations"))
    ensures d.Obj? && !HasField(d.fields, "locations") ==> r == Fail(MissingKey(WorldSchema, "locations"))
    ensures d.Obj? && HasField(d.fields, "locations") && IsNullish(Lookup(d.fields, "locations")) ==> r == Fail(TypeFault)
    ensures r.Ok? <==>
      && d.Obj? && HasField(d.fields, "locations")
      && Indexed(Lookup(d.fields, "locations")).Ok?
      && forall i :: 0 <= i < |Indexed(Lookup(d.fields, "locations")).value| ==>
           Locations.Validate(Indexed(Lookup(d.fields, "locations")).value[i]).Ok?
  {
    if !RealityCheck(d) then Fail(Nullish(WorldSchema))
    else if !IsObjectType(d) then Fail(NotAnObject(WorldSchema))
    else
      match HasKey(d, "locations")
      case Fail(e) => Fail(e)
      case Ok(present) =>
        if !present then Fail(MissingKey(WorldSchema, "locations"))
        else
          var entries :- Indexed(Get(d, "locations"));
          match CheckAll(entries, Locations.Validate)
          case Pass => Ok(())
          case FailAt(_, e) => Fail(e)
  }

  /** The constructor. No options, or no `locations`, give an empty world;
      an array has each entry validated and stored as is; any other value
      is validated and stored as the only entry. A validation failure
      escapes unchanged. */
  function New(options: Value): (r: Result<World>)
    ensures !RealityCheck(options) ==> r == Ok(World([]))
    ensures options.Obj? && IsNullish(Lookup(options.fields, "locations")) ==> r == Ok(World([]))
    ensures options.Obj? && Lookup(options.fields, "locations").Arr? ==>
      var items := Lookup(options.fields, "locations").items;
      && (r.Ok? <==> forall i :: 0 <= i < |items| ==> Locations.Validate(items[i]).Ok?)
      && (r.Ok? ==> r.value.locations == items)
      && (r.Fail? ==> exists i ::
            && 0 <= i < |items|
            && Locations.Validate(items[i]) == Fail(r.error)
            && forall j :: 0 <= j < i ==> Locations.Validate(items[j]).Ok?)
    ensures options.Obj? && RealityCheck(Lookup(options.fields, "locations")) && !Lookup(options.fields, "locations").Arr? ==>
      var single := Lookup(options.fields, "locations");
      r == if Locations.Validate(single).Ok? then Ok(World([single])) else Fail(Locations.Validate(single).error)
  {
    if !RealityCheck(options) then Ok(World([]))
    else
      var locs := Get(options, "locations");
      if !RealityCheck(locs) then Ok(World([]))
      else if locs.Arr? then
        match CheckAll(locs.items, Locations.Validate)
        case Pass => Ok(World(locs.items))
        case FailAt(i, e) =>
          assert Locations.Validate(locs.items[i]) == Fail(e);
          Fail(e)
      else
        var _ :- Locations.Validate(locs);
        Ok(World([locs]))
  }

  /** `World.from_dict`: a validation failure is wrapped; otherwise the
      constructor runs on a record holding the same `locations`, and its own
      failures escape unwrapped. */
  function FromDict(d: Value): (r: Result<World>)
    ensures Validate(d).Fail? ==> r == Fail(NotConvertible(Validate(d).error))
    ensures Validate(d).Ok? ==> d.Obj? && r == New(Forwarded(Lookup(d.fields, "locations")))
  {
    match Validate(d)
    case Fail(e) => Fail(NotConvertible(e))
    case Ok(_) => New(Forwarded(Get(d, "locations")))
  }

  /** `World.from_string`: parse errors, a parsed null and an invalid
      parsed value are each reported in their own way; a valid value goes
      through `from_dict`. */
  function FromString(text: string, parse: string -> ParseResult): (r: Result<World>)
    ensures parse(text).Unparsable? ==> r == Fail(ParseFailed(parse(text).message))
    ensures parse(text).Parsed? && IsNullish(parse(text).value) ==> r == Fail(ParsedNullish)
    ensures parse(text).Parsed? && !IsNullish(parse(text).value) && Validate(parse(text).value).Fail? ==>
      r == Fail(ParsedInvalid(Validate(parse(text).value).error))
    ensures parse(text).Parsed? && Validate(parse(text).value).Ok? ==> r == FromDict(parse(text).value)
  {
    match parse(text)
    case Unparsable(m) => Fail(ParseFailed(m))
    case Parsed(v) =>
      if !RealityCheck(v) then Fail(ParsedNullish)
      else match Validate(v)
        case Fail(e) => Fail(ParsedInvalid(e))
        case Ok(_) => FromDict(v)
  }

  /** Whether a stored entry has a callable `to_dict` of its own. */
  predicate HasOwnToDict(v: Value) {
    v.Obj? && Lookup(v.fields, "to_dict").Func?
  }

  /** `location.to_dict()` on a stored entry: a record without a callable
      `to_dict` raises a TypeError; otherwise the outcome is that of the
      record's own function, given as `invoke`. */
  function EntryToDict(v: Value, invoke: Value -> Result<Value>): (r: Result<Value>)
    ensures !HasOwnToDict(v) ==> r == Fail(TypeFault)
    ensures HasOwnToDict(v) ==> r == invoke(v)
  {
    if HasOwnToDict(v) then invoke(v) else Fail(TypeFault)
  }

  /** `World.to_dict`: a record `{locations: [...]}` holding each entry's
      `to_dict` result in order; the first failure aborts. */
  function ToDict(w: World, invoke: Value -> Result<Value>): (r: Result<Value>)
    ensures r.Ok? <==> forall i :: 0 <= i < |w.locations| ==> EntryToDict(w.locations[i], invoke).Ok?
    ensures r.Ok? ==> exists ds: seq<Value> ::
      && r.value == Obj([("locations", Arr(ds))])
      && |ds| == |w.locations|
      && forall i :: 0 <= i < |ds| ==> EntryToDict(w.locations[i], invoke) == Ok(ds[i])
    ensures r.Fail? ==> exists i ::
      && 0 <= i < |w.locations|
      && EntryToDict(w.locations[i], invoke) == Fail(r.error)
      && forall j :: 0 <= j < i ==> EntryToDict(w.locations[j], invoke).Ok?
  {
    var ds :- MapAll(w.locations, v => EntryToDict(v, invoke));
    assert forall i :: 0 <= i < |ds| ==> EntryToDict(w.locations[i], invoke) == Ok(ds[i]);
    Ok(Obj([("locations", Arr(ds))]))
  }

  /** The record `from_dict` hands to the constructor. */
  function Forwarded(locs: Value): Value {
    Obj([("locations", locs)])
  }

  /** An array of valid locations is stored entry for entry, as records. */
  lemma ArrayStoredVerbatim(d: Value)
    requires Validate(d).Ok? && Lookup(d.fields, "locations").Arr?
    ensures FromDict(d) == Ok(World(Lookup(d.fields, "locations").items))
  {
    assert Lookup(Forwarded(Lookup(d.fields, "locations")).fields, "locations") == Lookup(d.fields, "locations");
  }

  /** A bad entry of a `locations` array is caught by the validator, so its
      error comes back wrapped. */
  lemma ArrayEntryErrorsWrapped(d: Value, i: nat)
    requires d.Obj? && HasField(d.fields, "locations")
    requires Lookup(d.fields, "locations").Arr?
    requires var items := Lookup(d.fields, "locations").items;
      && i < |items| && Locations.Validate(items[i]).Fail?
      && forall j :: 0 <= j < i ==> Locations.Validate(items[j]).Ok?
    ensures FromDict(d) == Fail(NotConvertible(Locations.Validate(Lookup(d.fields, "locations").items[i]).error))
  {
    var items := Lookup(d.fields, "locations").items;
    CheckAllFirstFailure(items, Locations.Validate, i);
  }

  /** A `locations` value that is neither an array, a string nor null has
      no `length`, so the validator's loop never runs and accepts it; the
      constructor then checks it as a single location, and its error
      escapes from `from_dict` without the wrapping an array entry gets. */
  lemma LoneLocationCheckedOnlyByConstructor(d: Value)
    requires d.Obj? && HasField(d.fields, "locations")
    requires var locs := Lookup(d.fields, "locations"); RealityCheck(locs) && !locs.Arr? && !locs.Str?
    ensures Validate(d).Ok?
    ensures var locs := Lookup(d.fields, "locations");
      FromDict(d) == if Locations.Validate(locs).Ok? then Ok(World([locs])) else Fail(Locations.Validate(locs).error)
  {
    var locs := Lookup(d.fields, "locations");
    assert Indexed(locs) == Ok([]);
    assert Lookup(Forwarded(locs).fields, "locations") == locs;
  }

  /** A string `locations` is indexed character by character, and no
      one-character string is a location: a non-empty string is rejected by
      the validator, while the empty string passes it and then fails in the
      constructor with a TypeError. */
  lemma StringLocations(d: Value)
    requires d.Obj? && HasField(d.fields, "locations") && Lookup(d.fields, "locations").Str?
    ensures FromDict(d) == if Lookup(d.fields, "locations").s == "" then Fail(TypeFault) else Fail(NotConvertible(TypeFault))
  {
    var locs := Lookup(d.fields, "locations");
    var entries := Indexed(locs).value;
    assert Lookup(Forwarded(locs).fields, "locations") == locs;
    if |locs.s| > 0 {
      assert entries[0] == Str([locs.s[0]]);
      CheckAllFirstFailure(entries, Locations.Validate, 0);
    } else {
      assert Validate(d).Ok?;
    }
  }

  /** Every value found in JSON data is JSON data or undefined. */
  lemma {:induction false} LookupInJsonData(fields: seq<(string, Value)>, key: string)
    requires forall i :: 0 <= i < |fields| ==> JsonData(fields[i].1)
    ensures var v := Lookup(fields, key); v == Undef || JsonData(v)
  {
    if |fields| > 0 && fields[0].0 != key {
      LookupInJsonData(fields[1..], key);
    }
  }

  /** JSON data holds no functions, so no stored entry of a world read from
      it has a `to_dict` to call: any such world with a location cannot be
      turned back into a record. */
  lemma JsonWorldsCannotBeSerialised(d: Value, invoke: Value -> Result<Value>)
    requires JsonData(d) && FromDict(d).Ok? && |FromDict(d).value.locations| > 0
    ensures ToDict(FromDict(d).value, invoke) == Fail(TypeFault)
  {
    assert Validate(d).Ok?;
    var locs := Lookup(d.fields, "locations");
    LookupInJsonData(d.fields, "locations");
    assert Lookup(Forwarded(locs).fields, "locations") == locs;
    var w := FromDict(d).value;
    forall i | 0 <= i < |w.locations| ensures !HasOwnToDict(w.locations[i]) {
      var v := w.locations[i];
      assert JsonData(v);
      if v.Obj? {
        LookupInJsonData(v.fields, "to_dict");
      }
    }
    assert EntryToDict(w.locations[0], invoke).Fail?;
  }

  /** The same for a world read from text, as `JSON.parse` yields JSON data. */
  lemma TextWorldsCannotBeSerialised(text: string, parse: string -> ParseResult, invoke: Value -> Result<Value>)
    requires parse(text).Parsed? && JsonData(parse(text).value)
    requires FromString(text, parse).Ok? && |FromString(text, parse).value.locations| > 0
    ensures ToDict(FromString(text, parse).value, invoke) == Fail(TypeFault)
  {
    JsonWorldsCannotBeSerialised(parse(text).value, invoke);
  }

  /** The empty world survives a round trip through its record. */
  lemma EmptyRoundTrip(invoke: Value -> Result<Value>)
    ensures ToDict(World([]), invoke) == Ok(Forwarded(Arr([])))
    ensures FromDict(Forwarded(Arr([]))) == Ok(World([]))
  {
    assert Lookup(Forwarded(Arr([])).fields, "locations") == Arr([]);
    assert HasField(Forwarded(Arr([])).fields, "locations");
  }

  /** Text that parses to a valid world takes the validator once for its
      own message and then `from_dict`, whose wrapping therefore never
      applies: the result is the constructor's. */
  lemma FromStringSkipsFromDictWrapping(text: string, parse: string -> ParseResult)
    requires parse(text).Parsed? && Validate(parse(text).value).Ok?
    ensures var v := parse(text).value;
      FromString(text, parse) == New(Forwarded(Lookup(v.fields, "locations")))
  {
  }
}
